=== FILE: README.md ===
# alot command dispatch, modelled in Dafny

This project models the command layer of the alot mail client
(`alot/command.py`). It covers four parts.

- **The `COMMANDS` table.** For each UI mode it maps a command name to a command class and its default keyword arguments.
- **`commandfactory`.** It looks a name up in the mode's table and then in `global`, merges the call-site arguments over the defaults, calls the callables among the call-site arguments, attaches the `pre_<name>`/`post_<name>` hooks and calls the class.
- **`interpret_commandline`.** It turns a typed line into a command: it strips the line, cuts it at the first space, expands an alias once, rewrites `!cmd` to `shellescape`, checks the mode, and maps the rest of the line to keyword arguments by a fixed chain of per-command rules.
- **The computations inside a few `apply` methods.** These are:
  - the reply headers: the `Re: ` subject, the References and In-Reply-To headers, the choice of From address and `clear_my_address`;
  - cyclic buffer focus for `bnext` and `bprevious`;
  - search-buffer reuse;
  - toggling a tag;
  - splitting a retag string;
  - the refine rule;
  - the flush retry.

Modules, in dependency order:

- `Basics`: the `Option` and `Result` types.
- `Text`: Python's `strip`, `split`, `join` and `in` on strings.
- `Registry`: the command table.
- `Factory`: the constructors as far as they can fail, and `commandfactory`.
- `Interpreter`: `interpret_commandline`.
- `Scenarios`: end-to-end command lines.
- `Reply`: the reply headers.
- `Buffers`: buffer focus and search-buffer reuse.
- `Tagging`: the tag toggle, retag, refine and flush.

Command names are a datatype `Name` whose constructors are the 34 spellings in the table. `Registry.Recognise` maps text to a name, and `Registry.RecogniseSpelling` and `Registry.RecogniseComplete` show that this mapping is exact. No name sits in two tables, so the nested dictionary is represented by two functions:

- `Home` gives the table a name belongs to;
- `Registration` gives its class and defaults.

An exception the source raises while building a command becomes a `Failure` carrying a `BuildError`, and `interpret_commandline`'s `None` becomes `NoCommand`.

Four behaviours of the code worth knowing:

- **Defaults alone do not always build a command.** Building a registered command from its defaults alone fails for `search`, `shellescape` and `edit`: their classes have a required parameter that the table gives no default for (`Factory.DefaultsOnlyBuild`).
- **A whitespace-only line is not caught by the empty-line test.** That test only catches `""`. A line of whitespace reaches the mode check with the empty name and is rejected there (`Interpreter.BlankLine`).
- **An alias expansion is not cut again.** An alias whose expansion contains a space yields a name with a space in it, which no table holds, unless the expansion starts with `!`. Then its whole remainder, plus a space, becomes the `shellescape` command string: an alias to `!ls -la` runs `ls -la ` (`Interpreter.AliasToBang`).
- **An unknown name is an error, not a silent failure.** Calling `commandfactory` with such a name logs an error and then fails on the unbound `parms`. This is modelled as the `UnknownCommand` error.

## Model

`Command.args` records the keyword arguments passed to a class's constructor, not the fields the instance keeps. A keyword the constructor does not name ends in `Command.__init__`'s `**ignored` (alot/command.py:45) and has no effect. `compose` is the one rule that passes such a keyword (`Interpreter.CallSiteKeywords`).

| member | source | states |
|---|---|---|
| Registry.Recognise | alot/command.py:744-791 | text is mapped to a name only when it is that name's spelling in the table |
| Registry.RecogniseSpelling | alot/command.py:744-791 | every registered name is recognised from its own spelling, so no two names share a spelling |
| Registry.RecogniseComplete | alot/command.py:744-791 | text is recognised exactly when some registered name is spelled that way |
| Registry.Registration | alot/command.py:744-791 | every registered default is a plain value and names a parameter of the class's own constructor |
| Registry.Home | alot/command.py:744-791 | the class determines the table: the refine, open-thread, toggle-tag and retag classes sit in `search`; the three envelope classes in `envelope`; reply, forward, bounce and fold in `thread`; `TaglistSelectCommand` alone in `taglist`; the `bufferlist` table holds only buffer close and focus commands |
| Registry.Lookup | alot/command.py:795-800 | a name is found in a mode exactly when that mode's table or the global table holds it, and the entry found is the name's registration |
| Registry.GlobalEverywhere | alot/command.py:774-790 | a global command is found in every mode, with its global registration |
| Registry.ModeLocal | alot/command.py:745-773 | a command of a mode's own table is found in that mode and in no other |
| Factory.Construct | alot/command.py:43-48 | calling a command class succeeds exactly when: its required parameters are given; no keyword duplicates one the constructor passes itself; a toggle tag is truthy. Success records every keyword argument the constructor was given and sets `undoable` to false. The errors follow Python 2's binding order: a `self` keyword is reported first, then the missing parameters (named in the error), then `EditCommand`'s duplicated `commandstring` or `in_thread` |
| Factory.EditErrorOrder | alot/command.py:173-184 | for `EditCommand`, a `self` keyword is reported before a missing `path`, and a missing `path` before a duplicated `commandstring` |
| Factory.Evaluate | alot/command.py:803-807 | a call-site value always ends up a plain value: a literal is kept unchanged, and a callable becomes the value its producer returns |
| Factory.Merge | alot/command.py:801-807 | the merged keys are the defaults' plus the call site's; a call-site value wins over a default; a default is kept only where the call site is silent |
| Factory.Build | alot/command.py:794-813 | building fails as an unknown command exactly when the name is visible in neither table. Otherwise the class is the registered one, the hooks are `pre_<name>` and `post_<name>` from the hook table, and the arguments are the defaults overridden by the evaluated call-site values |
| Factory.GlobalFallback | alot/command.py:795-800 | a global command builds the same command in every mode as in `global` |
| Factory.ToggletagCallSiteWins | alot/command.py:297-298 | a call-site tag replaces the registered `inbox`; an empty call-site tag fails the tag assertion; with no call-site tag, `inbox` is used |
| Factory.DefaultsNeverCalled | alot/command.py:801-807 | without call-site arguments no producer is called: the result does not depend on the producers and holds the registered defaults exactly |
| Factory.ExtraKeysIgnored | alot/command.py:45 | keyword arguments a class does not know never make construction fail |
| Factory.DefaultsOnlyBuild | alot/command.py:744-813 | a registered command built from its defaults alone fails exactly for `search`, `shellescape` and `edit`, with a missing-argument error |
| Factory.RegistrationFacts | alot/command.py:744-791 | no registered default uses a reserved or hook key; the classes with required parameters are registered under `search`, `shellescape`, `edit` and `toggletag` |
| Interpreter.SplitFirstSpace | alot/command.py:820-825 | the name contains no space; if the text had a space, name, one space and rest put back together give the text; otherwise the rest is empty |
| Interpreter.Tokenise | alot/command.py:820-825 | the same split, applied to the stripped line |
| Interpreter.RuleArguments | alot/command.py:841-866 | the chain of special cases gives arguments to exactly the names with a rule, except an `edit` of a path that is not a file. The arguments are literals, hold every required parameter, and never hold `self`, `in_thread` or a hook key |
| Interpreter.CallSite | alot/command.py:841-876 | a line is rejected exactly for an `edit` of a path that is not a file, or a name without a rule that is not parameterless or has text after it. Accepted arguments are literals, hold every required parameter, and never hold `self`, `in_thread` or a hook key; `commandprompt` is never accepted |
| Interpreter.CallSiteKeywords | alot/command.py:841-876 | every keyword a call site passes names a parameter of the registered class's constructor, except `compose`'s `headers`, which `ComposeCommand` (alot/command.py:339) does not take |
| Interpreter.CallSiteBare | alot/command.py:868-876 | a name without a rule of its own gets no arguments, and gets them only when the rest is empty and the name is in the parameterless list |
| Interpreter.Dispatch | alot/command.py:836-876 | a name visible in neither table gives no command. The only error is an empty `toggletag`. A built command is never `commandprompt`, and its class is the one registered for the name |
| Interpreter.Interpret | alot/command.py:816-876 | the empty line gives no command; a built command is never the command prompt; the only exception is the failed tag assertion |
| Interpreter.DispatchBuilt | alot/command.py:836-876 | when the name is visible and its rule accepts the rest, the command built has the registered class, the merged arguments and the name's hooks |
| Interpreter.StringParameter | alot/command.py:841-858 | `search`, `refine`, `prompt`, `retag`, `shellescape` and a non-empty `toggletag` pass the whole rest as one string parameter, under their own keyword |
| Interpreter.EnvelopeHeader | alot/command.py:851-856 | in envelope mode, `subject` and `to` set their header to the rest of the line, whatever it is |
| Interpreter.FoldAll | alot/command.py:859-862 | `fold` and `unfold` act on all messages exactly when the rest is `all`, and keep their registered visibility |
| Interpreter.ComposeTo | alot/command.py:843-844 | `compose`, in every mode, passes `headers={'To': rest}` even for an empty rest, which `ComposeCommand` ignores |
| Interpreter.EditOnlyExisting | alot/command.py:863-866 | `edit` opens the user-expanded path when it names an existing file, and gives no command otherwise |
| Interpreter.BareOnlyEmpty | alot/command.py:868-876 | a parameterless command is built with its registered defaults when nothing follows it, and gives no command otherwise |
| Interpreter.OnlyCommandPromptUnreachable | alot/command.py:841-876 | every registered name except `commandprompt` has a rule or is parameterless; `commandprompt` can never be typed |
| Interpreter.TokeniseLine | alot/command.py:820-825 | a name, one space and a rest not ending in whitespace split back into that name and that rest |
| Interpreter.TokeniseWord | alot/command.py:820-825 | a single word splits into itself and an empty rest |
| Interpreter.BlankLine | alot/command.py:816-839 | a non-empty line of whitespace passes the empty-line test, splits into two empty strings, and gives no command |
| Interpreter.TypedLine | alot/command.py:816-839 | a command name, a space and a rest reach the mode check as that name and that rest |
| Interpreter.TypedName | alot/command.py:816-839 | a command name typed alone reaches the mode check with an empty rest |
| Interpreter.AliasToBang | alot/command.py:827-834 | an alias that expands to `!` followed by any text, spaces included, runs that text plus a space as an external command, because the `!` rewrite follows alias expansion |
| Interpreter.AliasAppliedOnce | alot/command.py:827-829 | an alias typed alone whose expansion is a single word (no whitespace, no leading `!`) reads exactly as that word with no aliases configured, so aliases do not chain |
| Interpreter.BangLine | alot/command.py:831-834 | a name starting with `!` is rewritten to `shellescape`: `!cmd rest` runs `cmd rest` as an external command, in every mode |
| Interpreter.BangWord | alot/command.py:831-834 | `!cmd` alone is rewritten to `shellescape` and runs `cmd` followed by a space |
| Interpreter.ShellescapeCommand | alot/command.py:853-854 | `shellescape` passes its whole parameter as the command string |
| Interpreter.StringLine | alot/command.py:816-858 | a typed string-rule line passes its rest, including any extra leading spaces, as the one parameter |
| Scenarios.BangWithArguments | alot/command.py:831-854 | `!ls -la` builds an external command with command string `ls -la` |
| Scenarios.BangAlone | alot/command.py:831-854 | `!ls` builds an external command with command string `ls ` |
| Scenarios.BareNameWithText | alot/command.py:868-876 | a parameterless command followed by text gives no command |
| Scenarios.UnknownWord | alot/command.py:836-839 | a word that is neither an alias nor a command name gives no command in any mode |
| Scenarios.LocalNameElsewhere | alot/command.py:836-839 | a name of one mode's table gives no command in any other mode |
| Scenarios.ToggletagWithoutTag | alot/command.py:857-858 | `toggletag` typed alone in a search buffer fails the tag assertion |
| Scenarios.AliasChainNotFollowed | alot/command.py:827-839 | an alias to a non-command word gives no command, even if that word is itself an alias |
| Reply.ReplySubject | alot/command.py:466-468 | the reply subject always starts with `Re:`. A subject that already does is kept; any other subject is `Re: ` followed by the original |
| Reply.ReplySubjectIdempotent | alot/command.py:466-468 | replying to a reply does not stack prefixes |
| Reply.ThreadIds | alot/command.py:513-521 | the id list has between 1 and 10 entries and ends with the new id. It keeps the first prior id. It is the prior list plus the new id when there were at most eight prior ids, and exactly ten entries otherwise |
| Reply.ThreadIdsKeepRecent | alot/command.py:516-521 | each of the last eight prior ids keeps its distance from the end of the list |
| Reply.References | alot/command.py:513-523 | an absent or empty prior References header gives just the bracketed message id |
| Reply.InReplyTo | alot/command.py:509-511 | the In-Reply-To value is the message id with one `<` before it and one `>` after it, and nothing else |
| Reply.ReferencesReadBack | alot/command.py:509-523 | read back word by word, the References header is the trimmed prior ids plus the bracketed id. It has at most ten words and ends with the In-Reply-To value |
| Reply.MentionIndex | alot/command.py:474-482 | finds the first own address that occurs in a header, and none exactly when no own address occurs |
| Reply.FirstMention | alot/command.py:474-482 | the address found is the first own address, in configuration order, that occurs in the header; none is found exactly when no own address occurs |
| Reply.MatchedAddress | alot/command.py:472-482 | the From address is the first own address found in `To`; failing that, the first found in `Cc` followed by `Bcc`; failing that, empty. A non-empty result is always an own address |
| Reply.KeepForeign | alot/command.py:527-532 | no kept entry mentions an own address, and no more entries come out than went in |
| Reply.KeepForeignAppend | alot/command.py:527-532 | the filter works entry by entry and keeps the order: filtering two lists one after the other is filtering their concatenation |
| Reply.KeepForeignMembership | alot/command.py:527-532 | a value is kept exactly when it is the stripped form of an entry that mentions no own address |
| Reply.ClearMyAddress | alot/command.py:527-532 | the cleared header mentions none of the own addresses (those that are non-empty, hold no comma and do not start with a space) |
| Reply.ClearNothingMine | alot/command.py:527-532 | with no own addresses, `clear_my_address` only strips each comma-separated entry and rejoins them with `, ` |
| Reply.ReplyRecipients | alot/command.py:487-507 | the reply always goes to the sender first. A plain reply goes to the sender only and has no `Cc` or `Bcc`. In a group reply nothing after the sender, and no `Cc` or `Bcc` value, mentions an own address, and `Cc` and `Bcc` are present exactly when the original had them |
| Reply.GroupReplyNothingMine | alot/command.py:487-507 | with no own addresses, a group reply goes to the sender and every stripped `To` entry |
| Buffers.IndexOf | alot/command.py:228 | `list.index` gives the first position that holds the element |
| Buffers.FocusTarget | alot/command.py:226-234 | with a non-zero offset, focusing fails exactly when the current buffer is not open, and otherwise lands on an open buffer. With a zero offset it focuses the given buffer, or else the selected one |
| Buffers.FocusRoundTrip | alot/command.py:226-230 | with distinct buffers, moving by an offset and then back by its negation returns to the starting buffer (`bnext` then `bprevious`) |
| Buffers.FocusFullCircle | alot/command.py:226-230 | moving by the number of open buffers returns to the current buffer |
| Buffers.FocusWraps | alot/command.py:226-230 | `bnext` from the last buffer wraps to the first, and `bprevious` from the first to the last |
| Buffers.LastMatch | alot/command.py:88-94 | reference definition: the position of the last open search buffer with the query, none exactly when there is no such buffer |
| Buffers.SearchTarget | alot/command.py:87-99 | a forced search opens a new buffer. Otherwise the search focuses an existing buffer exactly when one has the same query, and that buffer is the last such one |
| Buffers.RepeatedSearchReuses | alot/command.py:87-99 | repeating a search right after it opened a buffer focuses that new buffer |
| Tagging.Toggle | alot/command.py:303-310 | the tag is present afterwards exactly when it was absent before, and no other tag changes |
| Tagging.ToggleTwice | alot/command.py:303-310 | toggling the same tag twice restores the thread's tags |
| Tagging.NonEmpty | alot/command.py:402 | every kept piece is non-empty and comes from the input, and no more pieces come out than went in |
| Tagging.NonEmptyMembership | alot/command.py:402 | the filter keeps a piece exactly when it is non-empty |
| Tagging.RetagTags | alot/command.py:402 | the tags set by retag are non-empty and contain no comma |
| Tagging.RetagPromptText | alot/command.py:383-389 | the prompt text starts with `retag `, and what follows reads back as the thread's tags when no tag is empty or holds a comma |
| Tagging.RetagRoundTrip | alot/command.py:383-402 | for tags that are non-empty and hold no comma, splitting the comma-joined tag list the retag prompt offers gives back the same tags |
| Tagging.RetagPromptConfirmed | alot/command.py:383-402 | for tags that are non-empty and hold no comma and no whitespace, and with no alias named `retag`, submitting the retag prompt's text unchanged in a search buffer builds a retag command that sets the thread's current tags again |
| Tagging.RefineSettles | alot/command.py:426-431 | refining a second time with the same query never re-queries, whether or not the first refine did |
| Tagging.FlushRun | alot/command.py:280-291 | each attempt's step is a stop when it commits, a retry after the configured timeout when the index is locked, and an escaping exception, with no alarm, for any other error. The flush ends at the first attempt that is not locked, and every earlier step is a retry; a flush whose every attempt finds the index locked retries after each one |
| Tagging.FlushStopsAt | alot/command.py:280-291 | a flush sets exactly one alarm per locked attempt before the first attempt that commits or raises another error, and stops there; the answers after it do not matter |

## Left out

- The side effects of every `apply` method are not modelled: opening and focusing buffers, notifications, redraws, logging and writes to the index. The model keeps only the value each one computes, such as the buffer to focus, the headers to set or the tags to write.
- The hook table, the `command-aliases` section and the `flush_retry_timeout` setting become parameters (`Host.hooks`, `Env.aliases`, `timeout`). The configuration parser's lower-casing of option names is not modelled.
- `os.path.expanduser` and `os.path.isfile` are parameters with no stated behaviour.
- The zero-argument callables among call-site arguments are named producers that a parameter evaluates.
- Whitespace is Python 2 `str` whitespace. Unicode whitespace is not modelled.
- `Mode` holds exactly the six table keys, so an unknown mode key, which raises `KeyError` in the source, cannot be written.
- The constructors do nothing beyond what can make them fail: missing or duplicated keyword arguments and `assert tag`.
- Not modelled:
  - `EditCommand`'s assembly of the editor command line from the configuration;
  - `ExternalCommand`'s process handling;
  - `BufferCloseCommand`'s choice of buffer;
  - the bodies of `ForwardCommand`, `BounceMailCommand`, the envelope commands and `TaglistSelectCommand`.

  These read settings, the UI or the mail store, which are outside this model.
- The command prompt that `RetagPromptCommand` opens is not modelled. `Tagging.RetagPromptConfirmed` assumes the confirmed text is read back by `interpret_commandline` in search mode.
- The reply body quoting, MIME assembly, header encoding and the account lookup that turns the matched address into a `From` header are not modelled. So is the crash on a message without `Subject` or `To`.
- The read-only-index error paths of toggle and retag are not modelled, and neither is the search-buffer rebuild after refine.
- Tagging.FlushRun: the retry is modelled over a given finite sequence of attempt outcomes. The source retries for as long as the index stays locked.
- Reply.ClearMyAddress: the absence of own addresses is proved only for addresses that are non-empty, hold no comma and do not start with a space. Other addresses can be split by the comma join and still appear in the result.
- Reply.ReplyRecipients: the same restriction applies to its promise that a group reply mentions no own address after the sender.
- Tagging.Toggle: thread tags are modelled as a set. The order of the mail store's tag list is not modelled.

=== FILE: basics.dfy ===
/** Option and Result values used wherever the source returns `None` or raises. */
module Basics {

  /** A value that may be absent (Python's `None`). */
  datatype Option<+T> = None | Some(value: T) {

    /** The wrapped value, or `default` when absent. */
    function GetOr(default: T): T {
      match this
      case Some(v) => v
      case None => default
    }
  }

  /** Either a value or the error the source would raise instead. */
  datatype Result<+T, +E> = Success(value: T) | Failure(error: E)

  /** Python's `dict.get(key)`: the entry for `key`, or `None`. */
  function Get<K, V>(m: map<K, V>, key: K): (r: Option<V>)
    ensures r.Some? <==> key in m
    ensures r.Some? ==> r.value == m[key]
  {
    if key in m then Some(m[key]) else None
  }
}

=== FILE: buffers.dfy ===
/** Which buffer the buffer commands act on: cyclic focus for `bnext` and
    `bprevious`, and the reuse of an open search buffer by `search`. */
module Buffers {
  import opened Basics

  /** `list.index` raises `ValueError` when the focused buffer is not in
      the buffer list. */
  datatype FocusError = NotOpen

  /** `list.index`: the position of the first occurrence of `x`. */
  function IndexOf<B(==)>(s: seq<B>, x: B): (i: nat)
    requires x in s
    ensures i < |s| && s[i] == x && x !in s[..i]
  {
    if s[0] == x then 0
    else
      var i := 1 + IndexOf(s[1..], x);
      assert s[..i] == [s[0]] + s[1..][..i - 1];
      i
  }

  /** The buffer `BufferFocusCommand` focuses: with a non-zero offset, the
      buffer `offset` places after the current one, counted cyclically
      (Python's `%` with a positive modulus is Euclidean); otherwise the
      buffer it was given, or else the one selected in the current buffer. */
  function FocusTarget<B(==)>(buffers: seq<B>, current: B, offset: int, given: Option<B>, selected: B): (r: Result<B, FocusError>)
    ensures offset != 0 ==> (r.Failure? <==> current !in buffers)
    ensures offset != 0 && r.Success? ==> r.value in buffers
    ensures offset == 0 ==> r == Success(given.GetOr(selected))
  {
    if offset != 0 then
      if current in buffers then
        var i := IndexOf(buffers, current);
        Success(buffers[(i + offset) % |buffers|])
      else Failure(NotOpen)
    else Success(given.GetOr(selected))
  }

  /** A multiple of a positive `n` strictly between `-n` and `n` is zero. */
  lemma SmallMultiple(n: int, t: int)
    requires n > 0 && -n < n * t < n
    ensures t == 0
  {
  }

  /** `(x - n * q) % n == x` for `0 <= x < n`. */
  lemma ModMultiple(x: int, q: int, n: int)
    requires 0 <= x < n
    ensures (x - n * q) % n == x
  {
    var y := x - n * q;
    assert y == n * (y / n) + y % n;
    assert x - y % n == n * (y / n + q);
    SmallMultiple(n, y / n + q);
  }

  lemma ModBack(i: int, k: int, n: int)
    requires 0 <= i < n
    ensures ((i + k) % n - k) % n == i
  {
    var q := (i + k) / n;
    assert i + k == n * q + (i + k) % n;
    assert (i + k) % n - k == i - n * q;
    ModMultiple(i, q, n);
  }

  /** Moving `k` buffers forward and then `k` back returns to the buffer one
      started from, when no buffer is listed twice; in particular `bnext`
      followed by `bprevious` is a round trip. */
  lemma FocusRoundTrip<B>(buffers: seq<B>, current: B, k: int, given: Option<B>, selected: B)
    requires current in buffers
    requires k != 0
    requires forall i, j :: 0 <= i < j < |buffers| ==> buffers[i] != buffers[j]
    ensures var there := FocusTarget(buffers, current, k, given, selected);
      there.Success? && FocusTarget(buffers, there.value, -k, given, selected) == Success(current)
  {
    var n := |buffers|;
    var i := IndexOf(buffers, current);
    var j := (i + k) % n;
    var b := buffers[j];
    assert IndexOf(buffers, b) == j;
    ModBack(i, k, n);
    assert (j + -k) % n == i;
  }

  /** Going once around the whole list returns to the current buffer. */
  lemma FocusFullCircle<B>(buffers: seq<B>, current: B, given: Option<B>, selected: B)
    requires current in buffers
    ensures FocusTarget(buffers, current, |buffers|, given, selected) == Success(current)
  {
    var i := IndexOf(buffers, current);
    ModMultiple(i, -1, |buffers|);
  }

  /** `bnext` from the last buffer wraps to the first, and `bprevious` from
      the first wraps to the last. */
  lemma FocusWraps<B>(buffers: seq<B>, given: Option<B>, selected: B)
    requires |buffers| >= 1
    requires forall i, j :: 0 <= i < j < |buffers| ==> buffers[i] != buffers[j]
    ensures FocusTarget(buffers, buffers[|buffers| - 1], 1, given, selected) == Success(buffers[0])
    ensures FocusTarget(buffers, buffers[0], -1, given, selected) == Success(buffers[|buffers| - 1])
  {
    var n := |buffers|;
    assert IndexOf(buffers, buffers[n - 1]) == n - 1;
    assert IndexOf(buffers, buffers[0]) == 0;
    ModMultiple(0, -1, n);
    ModMultiple(n - 1, 1, n);
  }

  /** What `SearchCommand` does with the search buffers already open. */
  datatype SearchAction = FocusSearch(index: nat) | OpenSearch(query: string)

  /** Reference definition: the position of the last search buffer whose
      query string is `query`. */
  function LastMatch(queries: seq<string>, query: string): (r: Option<nat>)
    ensures r.None? <==> query !in queries
    ensures r.Some? ==> r.value < |queries| && queries[r.value] == query
    ensures r.Some? ==> forall j :: r.value < j < |queries| ==> queries[j] != query
  {
    if |queries| == 0 then None
    else if queries[|queries| - 1] == query then Some(|queries| - 1)
    else
      var r := LastMatch(queries[..|queries| - 1], query);
      assert queries == queries[..|queries| - 1] + [queries[|queries| - 1]];
      r
  }

  /** `SearchCommand.apply`: unless a new buffer is forced, scan the open
      search buffers (query strings in list order) and focus the last one
      whose query matches; open a new buffer when none does. */
  method SearchTarget(queries: seq<string>, query: string, forceNew: bool) returns (a: SearchAction)
    ensures forceNew ==> a == OpenSearch(query)
    ensures !forceNew ==> (a.FocusSearch? <==> query in queries)
    ensures a.FocusSearch? ==> Some(a.index) == LastMatch(queries, query)
    ensures a.OpenSearch? ==> a.query == query
  {
    if forceNew {
      return OpenSearch(query);
    }
    var found: Option<nat> := None;
    for i := 0 to |queries|
      invariant found.None? <==> query !in queries[..i]
      invariant found.Some? ==> found.value < i && queries[found.value] == query
      invariant found.Some? ==> forall j :: found.value < j < i ==> queries[j] != query
    {
      if queries[i] == query {
        found := Some(i);
      }
    }
    assert queries[..|queries|] == queries;
    match found
    case None => a := OpenSearch(query);
    case Some(i) =>
      a := FocusSearch(i);
      LastMatchUnique(queries, query, i);
  }

  /** The last match is the only index that matches with no later match. */
  lemma LastMatchUnique(queries: seq<string>, query: string, i: nat)
    requires i < |queries| && queries[i] == query
    requires forall j :: i < j < |queries| ==> queries[j] != query
    ensures LastMatch(queries, query) == Some(i)
  {
    var r := LastMatch(queries, query);
    if r.value < i {
    } else if r.value > i {
    }
  }

  /** A search repeated right after it opened a new buffer focuses that
      buffer instead of opening another. */
  lemma RepeatedSearchReuses(queries: seq<string>, query: string)
    ensures LastMatch(queries + [query], query) == Some(|queries|)
  {
    LastMatchUnique(queries + [query], query, |queries|);
  }
}

=== FILE: factory.dfy ===
/** `Command.__init__`, the command-class constructors as far as they can
    fail, and `commandfactory`. */
module Factory {
  import opened Basics
  import opened Registry

  /** A hook callable, identified by its name in the user's hooks file. */
  type HookRef = string

  /** A constructed command: its class, the keyword arguments passed to its
      constructor, its hooks and the `undoable` flag `Command.__init__` sets.
      `args` records what the constructor was given, not the fields the
      instance keeps: a keyword the class does not name ends in
      `Command.__init__`'s `**ignored` and has no effect. */
  datatype Command = Command(
    kind: Kind,
    args: map<string, Arg>,
    prehook: Option<HookRef>,
    posthook: Option<HookRef>,
    undoable: bool)

  /** What goes wrong while building a command. `UnknownCommand` stands for
      the logged error followed by the unbound `parms`; the others are the
      `TypeError`s and the failed `assert tag` of the constructors. */
  datatype BuildError =
    | UnknownCommand(name: string, mode: Mode)
    | MissingArgument(kind: Kind, missing: set<string>)
    | DuplicateArgument(kind: Kind, duplicated: set<string>)
    | EmptyTag

  /** The keys `commandfactory` always overwrites with the hooks. */
  const HookKeys: set<string> := {"prehook", "posthook"}

  /** Constructor parameters that have no default value. */
  function Required(k: Kind): set<string> {
    match k
    case SearchCommand => {"query"}
    case ExternalCommand => {"commandstring"}
    case EditCommand => {"path"}
    case ToggleThreadTagCommand => {"tag"}
    case _ => {}
  }

  /** Keyword names a constructor already passes on explicitly, so that the
      same name among the caller's arguments is a duplicate: `self` for every
      class, and the command string and thread flag `EditCommand` hands to
      `ExternalCommand`. */
  function Reserved(k: Kind): set<string> {
    if k == EditCommand then {"self", "commandstring", "in_thread"} else {"self"}
  }

  /** Python truthiness of an argument; callables are always true. */
  predicate Truthy(a: Arg) {
    match a
    case Deferred(_) => true
    case Lit(Str(s)) => s != ""
    case Lit(Bool(b)) => b
    case Lit(Int(i)) => i != 0
    case Lit(Dict(d)) => |d| != 0
  }

  /** Calling the class with the merged keyword arguments. Unknown keys are
      accepted and kept; construction fails only for a missing required
      parameter, a duplicated keyword, or an empty toggle tag. The errors
      come in the order Python 2 raises them: binding the keywords to the
      class's own constructor reports a `self` keyword before a missing
      parameter, and only then does `EditCommand` call
      `ExternalCommand.__init__`, whose binding reports a caller's
      `commandstring` or `in_thread`. */
  function Construct(kind: Kind, args: map<string, Arg>, pre: Option<HookRef>, post: Option<HookRef>)
    : (r: Result<Command, BuildError>)
    ensures r.Success? <==>
      && Required(kind) <= args.Keys
      && args.Keys !! Reserved(kind)
      && (kind == ToggleThreadTagCommand ==> Truthy(args["tag"]))
    ensures r.Success? ==> r.value == Command(kind, args, pre, post, false)
    ensures "self" in args ==> r == Failure(DuplicateArgument(kind, {"self"}))
    ensures "self" !in args && !(Required(kind) <= args.Keys) ==>
      r == Failure(MissingArgument(kind, Required(kind) - args.Keys))
    ensures "self" !in args && Required(kind) <= args.Keys && !(args.Keys !! Reserved(kind)) ==>
      r == Failure(DuplicateArgument(kind, args.Keys * Reserved(kind)))
  {
    if "self" in args then Failure(DuplicateArgument(kind, {"self"}))
    else if !(Required(kind) <= args.Keys) then Failure(MissingArgument(kind, Required(kind) - args.Keys))
    else if !(args.Keys !! Reserved(kind)) then Failure(DuplicateArgument(kind, args.Keys * Reserved(kind)))
    else if kind == ToggleThreadTagCommand && !Truthy(args["tag"]) then Failure(EmptyTag)
    else Success(Command(kind, args, pre, post, false))
  }

  /** `EditCommand`'s three keyword errors, in the order they are raised: a
      `self` keyword, then a missing `path`, then a duplicated
      `commandstring`. */
  lemma EditErrorOrder(v: Arg)
    ensures Construct(EditCommand, map["self" := v, "commandstring" := v], None, None)
              == Failure(DuplicateArgument(EditCommand, {"self"}))
    ensures Construct(EditCommand, map["commandstring" := v], None, None)
              == Failure(MissingArgument(EditCommand, {"path"}))
    ensures Construct(EditCommand, map["path" := v, "commandstring" := v], None, None)
              == Failure(DuplicateArgument(EditCommand, {"commandstring"}))
  {
    var m := map["path" := v, "commandstring" := v];
    assert m.Keys * Reserved(EditCommand) == {"commandstring"};
    assert Required(EditCommand) - map["commandstring" := v].Keys == {"path"};
  }

  /** A call-site value as `commandfactory` passes it on: callables are
      called, literals are kept. */
  function Evaluate(a: Arg, produce: string -> Value): (r: Arg)
    ensures r.Lit?
    ensures a.Lit? ==> r == a
    ensures a.Deferred? ==> r == Lit(produce(a.producer))
  {
    match a
    case Lit(_) => a
    case Deferred(p) => Lit(produce(p))
  }

  /** `parms = defaults.copy(); parms.update(kwargs)` followed by the
      evaluation of callable call-site values. */
  function Merge(defaults: map<string, Arg>, callsite: map<string, Arg>, produce: string -> Value)
    : (r: map<string, Arg>)
    ensures r.Keys == defaults.Keys + callsite.Keys
    ensures forall k :: k in callsite ==> r[k] == Evaluate(callsite[k], produce)
    ensures forall k :: k in defaults && k !in callsite ==> r[k] == defaults[k]
  {
    var updated := defaults + callsite;
    map k | k in updated :: if k in callsite then Evaluate(callsite[k], produce) else updated[k]
  }

  /** `commandfactory(name, mode, **callsite)`. */
  function Build(name: string, mode: Mode, callsite: map<string, Arg>,
                 hooks: map<string, HookRef>, produce: string -> Value)
    : (r: Result<Command, BuildError>)
    ensures r == Failure(UnknownCommand(name, mode)) <==> !Visible(mode, name)
    ensures r.Success? ==>
      var e := Lookup(mode, name).value;
      && r.value.kind == e.kind
      && r.value.prehook == Get(hooks, "pre_" + name)
      && r.value.posthook == Get(hooks, "post_" + name)
      && !r.value.undoable
      && r.value.args.Keys == (e.defaults.Keys + callsite.Keys) - HookKeys
      && (forall k :: k in callsite && k !in HookKeys ==>
            r.value.args[k] == Evaluate(callsite[k], produce))
      && (forall k :: k in e.defaults && k !in callsite && k !in HookKeys ==>
            r.value.args[k] == e.defaults[k])
  {
    match Lookup(mode, name)
    case None => Failure(UnknownCommand(name, mode))
    case Some(e) =>
      Construct(e.kind, Merge(e.defaults, callsite, produce) - HookKeys,
                Get(hooks, "pre_" + name), Get(hooks, "post_" + name))
  }

  /** A name of the global table builds in every mode exactly what it
      builds in `global`. */
  lemma GlobalFallback(n: Name, m: Mode, callsite: map<string, Arg>,
                       hooks: map<string, HookRef>, produce: string -> Value)
    requires InTable(GlobalMode, n)
    ensures Build(Spelling(n), m, callsite, hooks, produce) == Build(Spelling(n), GlobalMode, callsite, hooks, produce)
    ensures Build(Spelling(n), m, callsite, hooks, produce) != Failure(UnknownCommand(Spelling(n), m))
  {
    GlobalEverywhere(m, n);
    GlobalEverywhere(GlobalMode, n);
  }

  /** A call-site tag replaces toggletag's default `inbox`, and an empty
      one fails `assert tag`; without a call-site tag the default is used. */
  lemma ToggletagCallSiteWins(t: string, hooks: map<string, HookRef>, produce: string -> Value)
    ensures
      var r := Build(Spelling(ToggleTag), SearchMode, map["tag" := Lit(Str(t))], hooks, produce);
      if t == "" then r == Failure(EmptyTag)
      else r.Success? && r.value.kind == ToggleThreadTagCommand && r.value.args == map["tag" := Lit(Str(t))]
    ensures
      var r := Build(Spelling(ToggleTag), SearchMode, map[], hooks, produce);
      r.Success? && r.value.args == map["tag" := Lit(Str("inbox"))]
  {
    RecogniseSpelling(ToggleTag);
    ToggletagBuild(Spelling(ToggleTag), t, hooks, produce);
  }

  lemma ToggletagBuild(name: string, t: string, hooks: map<string, HookRef>, produce: string -> Value)
    requires Recognise(name) == Some(ToggleTag)
    ensures
      var r := Build(name, SearchMode, map["tag" := Lit(Str(t))], hooks, produce);
      if t == "" then r == Failure(EmptyTag)
      else r.Success? && r.value.kind == ToggleThreadTagCommand && r.value.args == map["tag" := Lit(Str(t))]
    ensures
      var r := Build(name, SearchMode, map[], hooks, produce);
      r.Success? && r.value.args == map["tag" := Lit(Str("inbox"))]
  {
    var given := map["tag" := Lit(Str(t))];
    var inbox := map["tag" := Lit(Str("inbox"))];
    assert Lookup(SearchMode, name) == Some(Entry(ToggleThreadTagCommand, inbox));
    assert Merge(inbox, given, produce) - HookKeys == given;
    MergeNothing(inbox, produce);
    ToggleConstruct(given, Get(hooks, "pre_" + name), Get(hooks, "post_" + name));
    ToggleConstruct(inbox, Get(hooks, "pre_" + name), Get(hooks, "post_" + name));
  }

  lemma ToggleConstruct(args: map<string, Arg>, pre: Option<HookRef>, post: Option<HookRef>)
    requires args.Keys == {"tag"} && args["tag"].Lit? && args["tag"].value.Str?
    ensures
      var r := Construct(ToggleThreadTagCommand, args, pre, post);
      if args["tag"].value.s == "" then r == Failure(EmptyTag)
      else r == Success(Command(ToggleThreadTagCommand, args, pre, post, false))
  {
  }

  /** Building a command without call-site arguments never calls a producer:
      the command holds the registry defaults exactly as registered. */
  lemma DefaultsNeverCalled(name: string, m: Mode, hooks: map<string, HookRef>,
                            produce: string -> Value, other: string -> Value)
    requires Visible(m, name)
    ensures Build(name, m, map[], hooks, produce) == Build(name, m, map[], hooks, other)
    ensures Build(name, m, map[], hooks, produce).Success? ==>
      Build(name, m, map[], hooks, produce).value.args == Lookup(m, name).value.defaults - HookKeys
  {
    var e := Lookup(m, name).value;
    assert Merge(e.defaults, map[], produce) == Merge(e.defaults, map[], other) == e.defaults;
  }

  /** Keys a constructor does not know about never make it fail. */
  lemma ExtraKeysIgnored(kind: Kind, args: map<string, Arg>, extra: map<string, Arg>,
                         pre: Option<HookRef>, post: Option<HookRef>)
    requires Construct(kind, args, pre, post).Success?
    requires extra.Keys !! args.Keys && extra.Keys !! Reserved(kind)
    ensures Construct(kind, args + extra, pre, post).Success?
  {
  }

  /** A registered command built from its defaults alone: only `search`,
      `shellescape` and `edit` fail, because their classes have a required
      parameter the registry gives no default for. */
  lemma DefaultsOnlyBuild(n: Name, m: Mode, hooks: map<string, HookRef>, produce: string -> Value)
    requires Registered(m, n)
    ensures Build(Spelling(n), m, map[], hooks, produce).Failure? <==> n in {Search, ShellEscape, Edit}
    ensures Build(Spelling(n), m, map[], hooks, produce).Failure? ==>
      Build(Spelling(n), m, map[], hooks, produce).error.MissingArgument?
  {
    RecogniseSpelling(n);
    DefaultsOnlyConstruct(n, Spelling(n), m, hooks, produce);
  }

  lemma DefaultsOnlyConstruct(n: Name, name: string, m: Mode, hooks: map<string, HookRef>, produce: string -> Value)
    requires Registered(m, n) && Recognise(name) == Some(n)
    ensures Build(name, m, map[], hooks, produce).Failure? <==> n in {Search, ShellEscape, Edit}
    ensures Build(name, m, map[], hooks, produce).Failure? ==>
      Build(name, m, map[], hooks, produce).error.MissingArgument?
  {
    var e := Registration(n);
    RegistrationFacts(n);
    MergeNothing(e.defaults, produce);
    ConstructDefaults(n, e, Get(hooks, "pre_" + name), Get(hooks, "post_" + name));
  }

  /** Without call-site arguments the merge is the defaults. */
  lemma MergeNothing(defaults: map<string, Arg>, produce: string -> Value)
    requires defaults.Keys !! HookKeys
    ensures Merge(defaults, map[], produce) - HookKeys == defaults
  {
  }

  lemma ConstructDefaults(n: Name, e: Entry, pre: Option<HookRef>, post: Option<HookRef>)
    requires EntryFacts(n, e)
    ensures Construct(e.kind, e.defaults, pre, post).Failure? <==> n in {Search, ShellEscape, Edit}
    ensures Construct(e.kind, e.defaults, pre, post).Failure? ==>
      Construct(e.kind, e.defaults, pre, post).error.MissingArgument?
  {
    if e.kind == ToggleThreadTagCommand {
      assert e.defaults["tag"] == Lit(Str("inbox"));
    }
  }

  /** What the dispatch layer relies on about the registration of `n`: no
      default collides with a reserved or hook key, the classes with a
      required parameter sit under the expected names, and the entry builds
      from its defaults alone unless it is `search`, `shellescape` or `edit`. */
  predicate EntryFacts(n: Name, e: Entry) {
    && e.defaults.Keys !! Reserved(e.kind) + HookKeys
    && (e.kind == ToggleThreadTagCommand <==> n == ToggleTag)
    && (e.kind == ToggleThreadTagCommand ==> e.defaults == map["tag" := Lit(Str("inbox"))])
    && (e.kind == CommandPromptCommand <==> n == CommandPrompt)
    && (e.kind == EditCommand <==> n == Edit)
    && (n == Search ==> e.kind == SearchCommand)
    && (n == ShellEscape ==> e.kind == ExternalCommand)
    && (Required(e.kind) <= e.defaults.Keys <==> n !in {Search, ShellEscape, Edit})
  }

  /** `EntryFacts` holds of every registration. */
  lemma RegistrationFacts(n: Name)
    ensures EntryFacts(n, Registration(n))
  {
    if n in {Refine, RefinePrompt, OpenThread} {
      SearchBrowsingFacts(n);
    } else if n in {ToggleTag, Retag, RetagPrompt} {
      SearchTaggingFacts(n);
    } else if n in {Send, Reedit, Subject, To} {
      EnvelopeFacts(n);
    } else if n in {CloseFocussed, OpenFocussed, Select} {
      BufferlistTaglistFacts(n);
    } else if n in {Reply, GroupReply, Forward} {
      ThreadReplyFacts(n);
    } else if n in {Bounce, Fold, Unfold} {
      ThreadBounceFoldFacts(n);
    } else if n in {BNext, BPrevious, BufferList, Close} {
      GlobalBufferFacts(n);
    } else if n in {CommandPrompt, Compose, Edit, Exit} {
      GlobalEditingFacts(n);
    } else if n in {Flush, Prompt, PyShell, Refresh} {
      GlobalSessionFacts(n);
    } else {
      GlobalSearchShellFacts(n);
    }
  }

  lemma SearchBrowsingFacts(n: Name)
    requires n in {Refine, RefinePrompt, OpenThread}
    ensures EntryFacts(n, Registration(n))
  {
    if n == Refine {
      assert EntryFacts(Refine, Registration(Refine));
    } else if n == RefinePrompt {
      assert EntryFacts(RefinePrompt, Registration(RefinePrompt));
    } else {
      assert EntryFacts(OpenThread, Registration(OpenThread));
    }
  }

  lemma SearchTaggingFacts(n: Name)
    requires n in {ToggleTag, Retag, RetagPrompt}
    ensures EntryFacts(n, Registration(n))
  {
    if n == ToggleTag {
      assert EntryFacts(ToggleTag, Registration(ToggleTag));
    } else if n == Retag {
      assert EntryFacts(Retag, Registration(Retag));
    } else {
      assert EntryFacts(RetagPrompt, Registration(RetagPrompt));
    }
  }

  lemma EnvelopeFacts(n: Name)
    requires n in {Send, Reedit, Subject, To}
    ensures EntryFacts(n, Registration(n))
  {
    if n == Send {
      assert EntryFacts(Send, Registration(Send));
    } else if n == Reedit {
      assert EntryFacts(Reedit, Registration(Reedit));
    } else if n == Subject {
      assert EntryFacts(Subject, Registration(Subject));
    } else {
      assert EntryFacts(To, Registration(To));
    }
  }

  lemma BufferlistTaglistFacts(n: Name)
    requires n in {CloseFocussed, OpenFocussed, Select}
    ensures EntryFacts(n, Registration(n))
  {
    if n == CloseFocussed {
      assert EntryFacts(CloseFocussed, Registration(CloseFocussed));
    } else if n == OpenFocussed {
      assert EntryFacts(OpenFocussed, Registration(OpenFocussed));
    } else {
      assert EntryFacts(Select, Registration(Select));
    }
  }

  lemma ThreadReplyFacts(n: Name)
    requires n in {Reply, GroupReply, Forward}
    ensures EntryFacts(n, Registration(n))
  {
    if n == Reply {
      assert EntryFacts(Reply, Registration(Reply));
    } else if n == GroupReply {
      assert EntryFacts(GroupReply, Registration(GroupReply));
    } else {
      assert EntryFacts(Forward, Registration(Forward));
    }
  }

  lemma ThreadBounceFoldFacts(n: Name)
    requires n in {Bounce, Fold, Unfold}
    ensures EntryFacts(n, Registration(n))
  {
    if n == Bounce {
      assert EntryFacts(Bounce, Registration(Bounce));
    } else if n == Fold {
      assert EntryFacts(Fold, Registration(Fold));
    } else {
      assert EntryFacts(Unfold, Registration(Unfold));
    }
  }

  lemma GlobalBufferFacts(n: Name)
    requires n in {BNext, BPrevious, BufferList, Close}
    ensures EntryFacts(n, Registration(n))
  {
    if n == BNext {
      assert EntryFacts(BNext, Registration(BNext));
    } else if n == BPrevious {
      assert EntryFacts(BPrevious, Registration(BPrevious));
    } else if n == BufferList {
      assert EntryFacts(BufferList, Registration(BufferList));
    } else {
      assert EntryFacts(Close, Registration(Close));
    }
  }

  lemma GlobalEditingFacts(n: Name)
    requires n in {CommandPrompt, Compose, Edit, Exit}
    ensures EntryFacts(n, Registration(n))
  {
    if n == CommandPrompt {
      assert EntryFacts(CommandPrompt, Registration(CommandPrompt));
    } else if n == Compose {
      assert EntryFacts(Compose, Registration(Compose));
    } else if n == Edit {
      assert EntryFacts(Edit, Registration(Edit));
    } else {
      assert EntryFacts(Exit, Registration(Exit));
    }
  }

  lemma GlobalSessionFacts(n: Name)
    requires n in {Flush, Prompt, PyShell, Refresh}
    ensures EntryFacts(n, Registration(n))
  {
    if n == Flush {
      assert EntryFacts(Flush, Registration(Flush));
    } else if n == Prompt {
      assert EntryFacts(Prompt, Registration(Prompt));
    } else if n == PyShell {
      assert EntryFacts(PyShell, Registration(PyShell));
    } else {
      assert EntryFacts(Refresh, Registration(Refresh));
    }
  }

  lemma GlobalSearchShellFacts(n: Name)
    requires n in {Search, ShellEscape, TagList}
    ensures EntryFacts(n, Registration(n))
  {
    if n == Search {
      assert EntryFacts(Search, Registration(Search));
    } else if n == ShellEscape {
      assert EntryFacts(ShellEscape, Registration(ShellEscape));
    } else {
      assert EntryFacts(TagList, Registration(TagList));
    }
  }
}

=== FILE: interpreter.dfy ===
/** `interpret_commandline`: from a line of text to a command, in the
    current mode. */
module Interpreter {
  import opened Basics
  import opened Text
  import opened Registry
  import opened Factory

  /** What command construction reads from outside: the hooks file,
      `os.path.expanduser`, `os.path.isfile`, and the producers behind
      deferred arguments. */
  datatype Host = Host(
    hooks: map<string, HookRef>,
    expandUser: string -> string,
    isFile: string -> bool,
    produce: string -> Value)

  /** Everything the interpreter reads besides the line and the mode: the
      `command-aliases` section of the configuration and the host. */
  datatype Env = Env(aliases: map<string, string>, host: Host)

  /** The result of interpreting a line: `None`, a command, or the
      exception raised while building it. */
  datatype Outcome = NoCommand | Built(cmd: Command) | Raised(error: BuildError)

  /** `s.split(' ', 1)`: `s` cut at its first single space. */
  function SplitFirstSpace(s: string): (t: (string, string))
    ensures ' ' !in t.0
    ensures ' ' in s ==> s == t.0 + " " + t.1
    ensures ' ' !in s ==> t == (s, "")
  {
    match Find(s, ' ')
    case None => (s, "")
    case Some(i) =>
      assert s == s[..i] + " " + s[i + 1..];
      (s[..i], s[i + 1..])
  }

  /** `cmdline.strip().split(' ', 1)`: the stripped line cut at its first
      single space into the command name and the rest. */
  function Tokenise(line: string): (t: (string, string))
    ensures ' ' !in t.0
    ensures ' ' in Strip(line) ==> Strip(line) == t.0 + " " + t.1
    ensures ' ' !in Strip(line) ==> t == (Strip(line), "")
  {
    SplitFirstSpace(Strip(line))
  }

  /** One round of alias expansion; the expansion is not looked up again. */
  function ExpandAlias(aliases: map<string, string>, name: string): (r: string)
    ensures name !in aliases ==> r == name
    ensures name in aliases ==> r == aliases[name]
  {
    if name in aliases then aliases[name] else name
  }

  /** A name starting with `!` becomes `shellescape`, with everything after
      the `!`, a space and the rest as its parameter. */
  function BangRewrite(name: string, rest: string): (p: (string, string))
    ensures |name| > 0 && name[0] == '!' ==> p == (Spelling(ShellEscape), name[1..] + " " + rest)
    ensures !(|name| > 0 && name[0] == '!') ==> p == (name, rest)
  {
    if |name| > 0 && name[0] == '!' then (Spelling(ShellEscape), name[1..] + " " + rest) else (name, rest)
  }

  /** The commands dispatched without parameters, and only when the rest of
      the line is empty. */
  predicate Bare(n: Name) {
    match n
    case Exit | Flush | PyShell | TagList | Close | Compose | OpenFocussed | CloseFocussed
       | BNext | BPrevious | Retag | Refresh | BufferList | RefinePrompt | Reply | Forward
       | GroupReply | Bounce | OpenThread | Send | Reedit | Select | RetagPrompt => true
    case _ => false
  }

  /** The commands with a rule of their own for the rest of the line. */
  predicate HasRule(n: Name) {
    match n
    case Search | Compose | Prompt | Refine | Retag | Subject | ShellEscape | To
       | ToggleTag | Fold | Unfold | Edit => true
    case _ => false
  }

  /** The commands a typed line can reach at all. */
  predicate Typable(n: Name) {
    HasRule(n) || Bare(n)
  }

  /** The keyword the whole rest of the line is passed under, for the rules
      that pass it unchanged. */
  function StringKey(n: Name): string
    requires n in {Search, Prompt, Refine, Retag, ShellEscape, ToggleTag}
  {
    match n
    case Search => "query"
    case Prompt => "startstring"
    case Refine => "query"
    case Retag => "tagsstring"
    case ShellEscape => "commandstring"
    case ToggleTag => "tag"
  }

  /** The keyword arguments the chain of special cases passes for a name
      with a rule of its own, or `None` when the name has no rule or the
      rule rejects the line (an `edit` of a path that is not a file). */
  function RuleArguments(n: Name, rest: string, host: Host): (r: Option<map<string, Arg>>)
    ensures r.None? <==> !HasRule(n) || (n == Edit && !host.isFile(host.expandUser(rest)))
    ensures r.Some? ==> ArgumentsFit(n, rest, r.value)
  {
    match n
    case Search | Prompt | Refine | Retag | ShellEscape | ToggleTag => Some(StringArguments(n, rest))
    case Compose => Some(ComposeArguments(rest))
    case Subject | To => Some(HeaderArguments(n, rest))
    case Fold | Unfold => Some(FoldArguments(n, rest))
    case Edit => EditArguments(rest, host)
    case _ => None
  }

  /** `compose`: the rest as the `To` entry of a `headers` dictionary. */
  function ComposeArguments(rest: string): (cs: map<string, Arg>)
    ensures ArgumentsFit(Compose, rest, cs)
    ensures cs.Keys == {"headers"} && cs["headers"] == Lit(Dict(map["To" := rest]))
  {
    map["headers" := Lit(Dict(map["To" := rest]))]
  }

  /** `subject` and `to`: the header name as `key`, the rest as `value`. */
  function HeaderArguments(n: Name, rest: string): (cs: map<string, Arg>)
    requires n in {Subject, To}
    ensures ArgumentsFit(n, rest, cs)
    ensures cs.Keys == {"key", "value"} && cs["value"] == Lit(Str(rest))
    ensures cs["key"] == Lit(Str(if n == Subject then "Subject" else "To"))
  {
    map["key" := Lit(Str(if n == Subject then "Subject" else "To")), "value" := Lit(Str(rest))]
  }

  /** `fold` and `unfold`: `all` is whether the rest is exactly `all`. */
  function FoldArguments(n: Name, rest: string): (cs: map<string, Arg>)
    requires n in {Fold, Unfold}
    ensures ArgumentsFit(n, rest, cs)
    ensures cs.Keys == {"all"} && cs["all"] == Lit(Bool(rest == "all"))
  {
    map["all" := Lit(Bool(rest == "all"))]
  }

  /** `edit`: the user-expanded path, only when it names a file. */
  function EditArguments(rest: string, host: Host): (r: Option<map<string, Arg>>)
    ensures r.None? <==> !host.isFile(host.expandUser(rest))
    ensures r.Some? ==> ArgumentsFit(Edit, rest, r.value)
    ensures r.Some? ==> r.value == map["path" := Lit(Str(host.expandUser(rest)))]
  {
    var path := host.expandUser(rest);
    if host.isFile(path) then Some(map["path" := Lit(Str(path))]) else None
  }

  /** The rules that pass the whole rest as one string, under the keyword
      the class expects. */
  function StringArguments(n: Name, rest: string): (cs: map<string, Arg>)
    requires n in {Search, Prompt, Refine, Retag, ShellEscape, ToggleTag}
    ensures ArgumentsFit(n, rest, cs)
    ensures cs.Keys == {StringKey(n)} && cs[StringKey(n)] == Lit(Str(rest))
  {
    map[StringKey(n) := Lit(Str(rest))]
  }

  /** The keyword arguments `interpret_commandline` passes for `n` and the
      rest of the line, or `None` when the line is rejected: the special
      cases come first, then the list of names taken without parameters.
      Only an `edit` of a path that is not a file, and a name without a rule
      of its own that is not in the bare list or has text after it, are
      rejected. */
  function CallSite(n: Name, rest: string, host: Host): (r: Option<map<string, Arg>>)
    ensures r.None? <==>
      || (n == Edit && !host.isFile(host.expandUser(rest)))
      || (!HasRule(n) && !(rest == "" && Bare(n)))
    ensures r.Some? ==> Typable(n) && ArgumentsFit(n, rest, r.value)
  {
    if HasRule(n) then RuleArguments(n, rest, host)
    else if rest == "" && Bare(n) then
      assert n != CommandPrompt;
      Some(map[])
    else None
  }

  /** The keyword arguments `cs` for `n` are literals, carry what the class
      requires and nothing the constructors or the factory reserve. */
  predicate ArgumentsFit(n: Name, rest: string, cs: map<string, Arg>) {
    && n != CommandPrompt
    && (forall k :: k in cs ==> cs[k].Lit?)
    && cs.Keys !! {"self", "in_thread", "prehook", "posthook"}
    && (n == Search ==> "query" in cs)
    && (n == ShellEscape ==> "commandstring" in cs)
    && (n == Edit ==> "path" in cs && "commandstring" !in cs)
    && (n == ToggleTag ==> cs == map["tag" := Lit(Str(rest))])
  }

  /** Every keyword a call site passes names a parameter of the registered
      class's own constructor, except `compose`'s `headers`:
      `ComposeCommand` takes only `mail`, so `headers` is swallowed by
      `Command.__init__`'s `**ignored`. */
  lemma CallSiteKeywords(n: Name, rest: string, host: Host)
    requires CallSite(n, rest, host).Some?
    ensures n != Compose ==> CallSite(n, rest, host).value.Keys <= Parameters(Registration(n).kind)
    ensures n == Compose ==>
              && "headers" in CallSite(n, rest, host).value
              && "headers" !in Parameters(Registration(n).kind)
  {
    if n in {Search, Prompt, Refine, Retag, ShellEscape, ToggleTag} {
      StringKeywords(n, rest, host);
    } else if n in {Subject, To, Fold, Unfold, Edit} {
      ShapedKeywords(n, rest, host);
    } else if n == Compose {
      ComposeKeywords(rest, host);
    } else {
      CallSiteBare(n, rest, host);
    }
  }

  /** `compose` passes `headers`, which `ComposeCommand` does not take. */
  lemma ComposeKeywords(rest: string, host: Host)
    ensures CallSite(Compose, rest, host) == Some(map["headers" := Lit(Dict(map["To" := rest]))])
    ensures Registration(Compose).kind == ComposeCommand && "headers" !in Parameters(ComposeCommand)
  {
  }

  /** The string rules pass one keyword, a parameter of the class. */
  lemma StringKeywords(n: Name, rest: string, host: Host)
    requires n in {Search, Prompt, Refine, Retag, ShellEscape, ToggleTag}
    ensures CallSite(n, rest, host) == Some(map[StringKey(n) := Lit(Str(rest))])
    ensures StringKey(n) in Parameters(Registration(n).kind)
  {
  }

  /** The header, fold and edit rules pass parameters of their classes. */
  lemma ShapedKeywords(n: Name, rest: string, host: Host)
    requires n in {Subject, To, Fold, Unfold, Edit} && CallSite(n, rest, host).Some?
    ensures CallSite(n, rest, host).value.Keys <= Parameters(Registration(n).kind)
  {
    if n in {Subject, To} {
      assert Registration(n).kind == EnvelopeSetCommand;
    } else if n in {Fold, Unfold} {
      assert Registration(n).kind == FoldMessagesCommand;
    } else {
      assert Registration(n).kind == EditCommand;
    }
  }

  /** A name without a rule of its own gets no arguments, and only when the
      rest is empty and the name is in the bare list. */
  lemma CallSiteBare(n: Name, rest: string, host: Host)
    requires !HasRule(n)
    ensures CallSite(n, rest, host) == if rest == "" && Bare(n) then Some(map[]) else None
  {
  }

  /** The mode check followed by the factory call. */
  function Dispatch(name: string, rest: string, mode: Mode, host: Host): (r: Outcome)
    ensures !Visible(mode, name) ==> r == NoCommand
    ensures r.Raised? <==> Visible(mode, name) && Recognise(name) == Some(ToggleTag) && rest == ""
    ensures r.Raised? ==> r.error == EmptyTag
    ensures r.Built? ==> Typable(Recognise(name).value)
    ensures r.Built? ==> r.cmd.kind != CommandPromptCommand
    ensures r.Built? ==> r.cmd.kind == Lookup(mode, name).value.kind
  {
    if !Visible(mode, name) then NoCommand
    else
      var n := Recognise(name).value;
      match CallSite(n, rest, host)
      case None => NoCommand
      case Some(cs) =>
        DispatchBuilds(n, name, rest, mode, host, cs);
        match Build(name, mode, cs, host.hooks, host.produce)
        case Success(c) => Built(c)
        case Failure(e) => Raised(e)
  }

  /** The factory call of `Dispatch` fails only on an empty toggle tag. */
  lemma DispatchBuilds(n: Name, name: string, rest: string, mode: Mode, host: Host, cs: map<string, Arg>)
    requires Recognise(name) == Some(n) && Registered(mode, n) && ArgumentsFit(n, rest, cs)
    ensures var r := Build(name, mode, cs, host.hooks, host.produce);
      && (r.Failure? <==> n == ToggleTag && rest == "")
      && (r.Failure? ==> r.error == EmptyTag)
      && (r.Success? ==> r.value.kind != CommandPromptCommand)
  {
    RegistrationFacts(n);
    BuildEntry(n, name, rest, mode, host, cs, Registration(n));
  }

  lemma BuildEntry(n: Name, name: string, rest: string, mode: Mode, host: Host, cs: map<string, Arg>, e: Entry)
    requires Lookup(mode, name) == Some(e) && EntryFacts(n, e) && ArgumentsFit(n, rest, cs)
    ensures var r := Build(name, mode, cs, host.hooks, host.produce);
      && (r.Failure? <==> n == ToggleTag && rest == "")
      && (r.Failure? ==> r.error == EmptyTag)
      && (r.Success? ==> r.value.kind != CommandPromptCommand)
  {
    var args := Merge(e.defaults, cs, host.produce) - HookKeys;
    ConstructFits(n, rest, e, cs, args, Get(host.hooks, "pre_" + name), Get(host.hooks, "post_" + name));
  }

  lemma ConstructFits(n: Name, rest: string, e: Entry, cs: map<string, Arg>, args: map<string, Arg>,
                      pre: Option<HookRef>, post: Option<HookRef>)
    requires EntryFacts(n, e) && ArgumentsFit(n, rest, cs)
    requires args.Keys == (e.defaults.Keys + cs.Keys) - HookKeys
    requires forall k :: k in cs && k !in HookKeys ==> args[k] == cs[k]
    ensures var r := Construct(e.kind, args, pre, post);
      && (r.Failure? <==> n == ToggleTag && rest == "")
      && (r.Failure? ==> r.error == EmptyTag)
      && (r.Success? ==> r.value.kind != CommandPromptCommand)
  {
    assert Required(e.kind) <= args.Keys;
    assert args.Keys !! Reserved(e.kind);
    if e.kind == ToggleThreadTagCommand {
      assert args["tag"] == Lit(Str(rest));
    }
  }

  /** `interpret_commandline(line, mode)`. */
  function Interpret(line: string, mode: Mode, env: Env): (r: Outcome)
    ensures line == "" ==> r == NoCommand
    ensures r.Built? ==> r.cmd.kind != CommandPromptCommand
    ensures r.Raised? ==> r.error == EmptyTag
  {
    if line == "" then NoCommand
    else
      var (name, rest) := Tokenise(line);
      var (cmd, params) := BangRewrite(ExpandAlias(env.aliases, name), rest);
      Dispatch(cmd, params, mode, env.host)
  }

  /** A typed name that is visible and whose rule accepts the rest builds
      the registered class with the merged arguments, unless it is an empty
      toggle tag. */
  lemma DispatchBuilt(n: Name, name: string, rest: string, mode: Mode, host: Host,
                      cs: map<string, Arg>, e: Entry)
    requires Recognise(name) == Some(n) && Lookup(mode, name) == Some(e)
    requires CallSite(n, rest, host) == Some(cs)
    requires !(n == ToggleTag && rest == "")
    ensures Dispatch(name, rest, mode, host) == Built(Command(
      e.kind, Merge(e.defaults, cs, host.produce) - HookKeys,
      Get(host.hooks, "pre_" + name), Get(host.hooks, "post_" + name), false))
  {
    var r := Build(name, mode, cs, host.hooks, host.produce);
    assert r == Construct(e.kind, Merge(e.defaults, cs, host.produce) - HookKeys,
                          Get(host.hooks, "pre_" + name), Get(host.hooks, "post_" + name));
    RegistrationFacts(n);
    DispatchBuilds(n, name, rest, mode, host, cs);
  }

  /** Merging literal call-site arguments that cover every default gives
      the call-site arguments. */
  lemma MergeCovered(defaults: map<string, Arg>, cs: map<string, Arg>, produce: string -> Value)
    requires defaults.Keys <= cs.Keys && cs.Keys !! HookKeys
    requires forall k :: k in cs ==> cs[k].Lit?
    ensures Merge(defaults, cs, produce) - HookKeys == cs
  {
  }

  /** A default and a literal call-site value under another key are both
      kept. */
  lemma MergeDisjoint(k: string, d: Arg, j: string, v: Arg, produce: string -> Value)
    requires k != j && k !in HookKeys && j !in HookKeys && v.Lit?
    ensures Merge(map[k := d], map[j := v], produce) - HookKeys == map[k := d, j := v]
  {
    var m := Merge(map[k := d], map[j := v], produce) - HookKeys;
    assert m.Keys == {k, j};
  }

  /** The registered defaults of the rules that pass the rest of the line
      as one string are at most that string's own key. */
  lemma StringDefaults(n: Name)
    requires n in {Search, Prompt, Refine, Retag, ShellEscape, ToggleTag}
    ensures Registration(n).defaults.Keys <= {StringKey(n)}
  {
    if n == ToggleTag {
      assert Registration(n).defaults.Keys == {"tag"};
    } else {
      assert Registration(n).defaults == map[];
    }
  }

  /** The whole rest of the line becomes one string parameter: `query` for
      `search` and `refine`, `startstring` for `prompt`, `tagsstring` for
      `retag`, `commandstring` for `shellescape` and `tag` for a non-empty
      `toggletag`; a registry default under the same key is overridden. */
  lemma StringParameter(n: Name, rest: string, mode: Mode, host: Host)
    requires n in {Search, Prompt, Refine, Retag, ShellEscape, ToggleTag}
    requires Registered(mode, n)
    requires n == ToggleTag ==> rest != ""
    ensures Dispatch(Spelling(n), rest, mode, host) == Built(Command(
      Registration(n).kind, map[StringKey(n) := Lit(Str(rest))],
      Get(host.hooks, "pre_" + Spelling(n)), Get(host.hooks, "post_" + Spelling(n)), false))
  {
    RecogniseSpelling(n);
    StringParameterOf(n, Spelling(n), rest, mode, host);
  }

  /** `StringParameter` for any text recognised as the name. The text is a
      variable here, so the verifier does not unfold the spelling literal. */
  lemma StringParameterOf(n: Name, name: string, rest: string, mode: Mode, host: Host)
    requires n in {Search, Prompt, Refine, Retag, ShellEscape, ToggleTag}
    requires Recognise(name) == Some(n) && Registered(mode, n)
    requires n == ToggleTag ==> rest != ""
    ensures Dispatch(name, rest, mode, host) == Built(Command(
      Registration(n).kind, map[StringKey(n) := Lit(Str(rest))],
      Get(host.hooks, "pre_" + name), Get(host.hooks, "post_" + name), false))
  {
    var cs := map[StringKey(n) := Lit(Str(rest))];
    assert CallSite(n, rest, host) == Some(cs);
    StringDefaults(n);
    MergeCovered(Registration(n).defaults, cs, host.produce);
    DispatchBuilt(n, name, rest, mode, host, cs, Registration(n));
  }

  /** The header name `subject` and `to` set. */
  function HeaderKey(n: Name): string
    requires n in {Subject, To}
  {
    if n == Subject then "Subject" else "To"
  }

  /** In envelope mode, `subject` and `to` set their header to the rest of
      the line, whatever it is; the call-site `key` equals the registered one. */
  lemma EnvelopeHeader(n: Name, rest: string, host: Host)
    requires n in {Subject, To}
    ensures Dispatch(Spelling(n), rest, EnvelopeMode, host) == Built(Command(
      EnvelopeSetCommand, map["key" := Lit(Str(HeaderKey(n))), "value" := Lit(Str(rest))],
      Get(host.hooks, "pre_" + Spelling(n)), Get(host.hooks, "post_" + Spelling(n)), false))
  {
    RecogniseSpelling(n);
    EnvelopeHeaderOf(n, Spelling(n), rest, host);
  }

  /** `EnvelopeHeader` for any text recognised as the name. The text is a
      variable here, so the verifier does not unfold the spelling literal. */
  lemma EnvelopeHeaderOf(n: Name, name: string, rest: string, host: Host)
    requires n in {Subject, To} && Recognise(name) == Some(n)
    ensures Dispatch(name, rest, EnvelopeMode, host) == Built(Command(
      EnvelopeSetCommand, map["key" := Lit(Str(HeaderKey(n))), "value" := Lit(Str(rest))],
      Get(host.hooks, "pre_" + name), Get(host.hooks, "post_" + name), false))
  {
    var cs := map["key" := Lit(Str(HeaderKey(n))), "value" := Lit(Str(rest))];
    assert CallSite(n, rest, host) == Some(cs);
    assert Registration(n).defaults.Keys == {"key"};
    MergeCovered(Registration(n).defaults, cs, host.produce);
    DispatchBuilt(n, name, rest, EnvelopeMode, host, cs, Registration(n));
  }

  /** In thread mode, `fold` and `unfold` act on all messages exactly when
      the rest is `all`, and keep their registered visibility. */
  lemma FoldAll(n: Name, rest: string, host: Host)
    requires n in {Fold, Unfold}
    ensures Dispatch(Spelling(n), rest, ThreadMode, host) == Built(Command(
      FoldMessagesCommand, map["visible" := Lit(Bool(n == Fold)), "all" := Lit(Bool(rest == "all"))],
      Get(host.hooks, "pre_" + Spelling(n)), Get(host.hooks, "post_" + Spelling(n)), false))
  {
    RecogniseSpelling(n);
    FoldAllOf(n, Spelling(n), rest, host);
  }

  /** `FoldAll` for any text recognised as the name. The text is a
      variable here, so the verifier does not unfold the spelling literal. */
  lemma FoldAllOf(n: Name, name: string, rest: string, host: Host)
    requires n in {Fold, Unfold} && Recognise(name) == Some(n)
    ensures Dispatch(name, rest, ThreadMode, host) == Built(Command(
      FoldMessagesCommand, map["visible" := Lit(Bool(n == Fold)), "all" := Lit(Bool(rest == "all"))],
      Get(host.hooks, "pre_" + name), Get(host.hooks, "post_" + name), false))
  {
    var cs := map["all" := Lit(Bool(rest == "all"))];
    var defaults := map["visible" := Lit(Bool(n == Fold))];
    assert CallSite(n, rest, host) == Some(cs);
    assert Registration(n).defaults == defaults;
    MergeDisjoint("visible", Lit(Bool(n == Fold)), "all", Lit(Bool(rest == "all")), host.produce);
    DispatchBuilt(n, name, rest, ThreadMode, host, cs, Registration(n));
  }

  /** `compose` in any mode is built with the keyword `headers`, mapping
      `To` to the whole rest, even an empty one: its rule comes before the
      bare-name list. `ComposeCommand` has no `headers` parameter, so the
      command ignores it. */
  lemma ComposeTo(rest: string, mode: Mode, host: Host)
    ensures Dispatch(Spelling(Compose), rest, mode, host) == Built(Command(
      ComposeCommand, map["headers" := Lit(Dict(map["To" := rest]))],
      Get(host.hooks, "pre_" + Spelling(Compose)), Get(host.hooks, "post_" + Spelling(Compose)), false))
  {
    RecogniseSpelling(Compose);
    ComposeToOf(Spelling(Compose), rest, mode, host);
  }

  /** `ComposeTo` for any text recognised as the name. The text is a
      variable here, so the verifier does not unfold the spelling literal. */
  lemma ComposeToOf(name: string, rest: string, mode: Mode, host: Host)
    requires Recognise(name) == Some(Compose)
    ensures Dispatch(name, rest, mode, host) == Built(Command(
      ComposeCommand, map["headers" := Lit(Dict(map["To" := rest]))],
      Get(host.hooks, "pre_" + name), Get(host.hooks, "post_" + name), false))
  {
    var cs := map["headers" := Lit(Dict(map["To" := rest]))];
    MergeCovered(map[], cs, host.produce);
    DispatchBuilt(Compose, name, rest, mode, host, cs, Registration(Compose));
  }

  /** `edit` in any mode opens the user-expanded path when it names an
      existing file, and is no command otherwise. */
  lemma EditOnlyExisting(rest: string, mode: Mode, host: Host)
    ensures var path := host.expandUser(rest);
      Dispatch(Spelling(Edit), rest, mode, host) ==
        if host.isFile(path) then
          Built(Command(EditCommand, map["path" := Lit(Str(path))],
                        Get(host.hooks, "pre_" + Spelling(Edit)), Get(host.hooks, "post_" + Spelling(Edit)), false))
        else NoCommand
  {
    RecogniseSpelling(Edit);
    EditOnlyExistingOf(Spelling(Edit), rest, mode, host);
  }

  /** `EditOnlyExisting` for any text recognised as the name. The text is a
      variable here, so the verifier does not unfold the spelling literal. */
  lemma EditOnlyExistingOf(name: string, rest: string, mode: Mode, host: Host)
    requires Recognise(name) == Some(Edit)
    ensures var path := host.expandUser(rest);
      Dispatch(name, rest, mode, host) ==
        if host.isFile(path) then
          Built(Command(EditCommand, map["path" := Lit(Str(path))],
                        Get(host.hooks, "pre_" + name), Get(host.hooks, "post_" + name), false))
        else NoCommand
  {
    var path := host.expandUser(rest);
    if host.isFile(path) {
      var cs := map["path" := Lit(Str(path))];
      MergeCovered(map[], cs, host.produce);
      DispatchBuilt(Edit, name, rest, mode, host, cs, Registration(Edit));
    }
  }

  /** A name without a rule of its own is dispatched with its registered
      defaults when nothing follows it, and is no command otherwise. */
  lemma BareOnlyEmpty(n: Name, rest: string, mode: Mode, host: Host)
    requires Bare(n) && !HasRule(n) && Registered(mode, n)
    ensures Dispatch(Spelling(n), rest, mode, host) ==
      if rest == "" then
        Built(Command(Registration(n).kind, Registration(n).defaults,
                      Get(host.hooks, "pre_" + Spelling(n)), Get(host.hooks, "post_" + Spelling(n)), false))
      else NoCommand
  {
    RecogniseSpelling(n);
    BareOnlyEmptyOf(n, Spelling(n), rest, mode, host);
  }

  /** `BareOnlyEmpty` for any text recognised as the name. The text is a
      variable here, so the verifier does not unfold the spelling literal. */
  lemma BareOnlyEmptyOf(n: Name, name: string, rest: string, mode: Mode, host: Host)
    requires Bare(n) && !HasRule(n) && Recognise(name) == Some(n) && Registered(mode, n)
    ensures Dispatch(name, rest, mode, host) ==
      if rest == "" then
        Built(Command(Registration(n).kind, Registration(n).defaults,
                      Get(host.hooks, "pre_" + name), Get(host.hooks, "post_" + name), false))
      else NoCommand
  {
    assert CallSite(n, rest, host) == if rest == "" then Some(map[]) else None;
    if rest == "" {
      RegistrationFacts(n);
      MergeNothing(Registration(n).defaults, host.produce);
      DispatchBuilt(n, name, rest, mode, host, map[], Registration(n));
    }
  }

  /** Every registered name but `commandprompt` has a rule or is in the bare
      list; `commandprompt` can never be typed. */
  lemma OnlyCommandPromptUnreachable(n: Name, rest: string, mode: Mode, host: Host)
    ensures Typable(n) <==> n != CommandPrompt
    ensures n == CommandPrompt ==> Dispatch(Spelling(n), rest, mode, host) == NoCommand
  {
    if n == CommandPrompt {
      RecogniseSpelling(n);
      assert CallSite(n, rest, host) == None;
    }
  }

  /** A name without spaces or surrounding whitespace, followed by a single
      space and a rest that does not end in whitespace, tokenises into that
      name and that rest, even when the rest itself starts with a space. */
  lemma {:induction false} TokeniseLine(name: string, rest: string)
    requires name != "" && ' ' !in name && Stripped(name)
    requires rest == "" || !IsSpace(rest[|rest| - 1])
    ensures Tokenise(name + " " + rest) == (name, rest)
  {
    var line := name + " " + rest;
    if rest == "" {
      assert line == name + " ";
      StripTrailingSpace(name);
      assert Tokenise(line) == SplitFirstSpace(name) == (name, "");
    } else {
      assert line[0] == name[0] && line[|line| - 1] == rest[|rest| - 1];
      assert Strip(line) == line;
      FindAfterPrefix(name, ' ', rest);
      assert line[..|name|] == name && line[|name| + 1..] == rest;
    }
  }

  /** A word: non-empty, without whitespace, not starting with `!`. */
  predicate Word(s: string) {
    s != "" && NoSpace(s) && s[0] != '!'
  }

  /** A word on its own tokenises into itself and an empty rest. */
  lemma TokeniseWord(w: string)
    requires w != "" && NoSpace(w)
    ensures Tokenise(w) == (w, "")
  {
    assert Stripped(w);
    forall i | 0 <= i < |w| ensures w[i] != ' ' {
      assert !IsSpace(w[i]);
    }
  }

  /** A non-empty line of whitespace only is not caught by the emptiness
      test: it reaches the mode check with the empty name and is rejected
      there (unless the empty name is itself an alias). */
  lemma BlankLine(line: string, mode: Mode, env: Env)
    requires line != "" && Blank(line) && "" !in env.aliases
    ensures Tokenise(line) == ("", "")
    ensures Interpret(line, mode, env) == NoCommand
  {
    assert Strip(line) == "";
    assert SplitFirstSpace("") == ("", "");
    assert Recognise("") == None;
  }

  /** Every command name is a word of lower-case letters. */
  predicate LowerWord(s: string) {
    s != "" && forall i :: 0 <= i < |s| ==> 'a' <= s[i] <= 'z'
  }

  lemma LowerIsWord(s: string)
    requires LowerWord(s)
    ensures Word(s) && Stripped(s) && ' ' !in s
  {
    assert NoSpace(s) by {
      forall i | 0 <= i < |s| ensures !IsSpace(s[i]) {
        assert 'a' <= s[i] <= 'z';
      }
    }
  }

  lemma SpellingIsWord(n: Name)
    ensures Word(Spelling(n)) && Stripped(Spelling(n)) && ' ' !in Spelling(n)
  {
    SpellingLower(n);
    LowerIsWord(Spelling(n));
  }

  lemma SpellingLower(n: Name)
    ensures LowerWord(Spelling(n))
  {
    if n in {To, Edit, Exit, Fold, Send} {
      LowerSpellingsUpToFour(n);
    } else if n in {BNext, Close, Flush, Reply, Retag} {
      LowerSpellingsOfFive(n);
    } else if n in {Bounce, Prompt, Reedit, Refine, Search} {
      LowerSpellingsOfSix(n);
    } else if n in {Select, Unfold, Compose, Forward, PyShell} {
      LowerSpellingsSixAndSeven(n);
    } else if n in {Refresh, Subject, TagList, BPrevious, ToggleTag} {
      LowerSpellingsSevenAndNine(n);
    } else if n in {BufferList, GroupReply, OpenThread, RetagPrompt} {
      LowerSpellingsTenAndEleven(n);
    } else {
      LowerSpellingsElevenToThirteen(n);
    }
  }

  lemma LowerSpellingsUpToFour(n: Name)
    requires n in {To, Edit, Exit, Fold, Send}
    ensures LowerWord(Spelling(n))
  {
  }

  lemma LowerSpellingsOfFive(n: Name)
    requires n in {BNext, Close, Flush, Reply, Retag}
    ensures LowerWord(Spelling(n))
  {
  }

  lemma LowerSpellingsOfSix(n: Name)
    requires n in {Bounce, Prompt, Reedit, Refine, Search}
    ensures LowerWord(Spelling(n))
  {
  }

  lemma LowerSpellingsSixAndSeven(n: Name)
    requires n in {Select, Unfold, Compose, Forward, PyShell}
    ensures LowerWord(Spelling(n))
  {
  }

  lemma LowerSpellingsSevenAndNine(n: Name)
    requires n in {Refresh, Subject, TagList, BPrevious, ToggleTag}
    ensures LowerWord(Spelling(n))
  {
  }

  lemma LowerSpellingsTenAndEleven(n: Name)
    requires n in {BufferList, GroupReply, OpenThread, RetagPrompt}
    ensures LowerWord(Spelling(n))
  {
  }

  lemma LowerSpellingsElevenToThirteen(n: Name)
    requires n in {ShellEscape, OpenFocussed, RefinePrompt, CloseFocussed, CommandPrompt}
    ensures LowerWord(Spelling(n))
  {
  }

  /** A typed command name followed by a space and a rest that does not end
      in whitespace reaches the mode check as that name and that rest. */
  lemma TypedLine(n: Name, rest: string, mode: Mode, env: Env)
    requires Spelling(n) !in env.aliases
    requires rest == "" || !IsSpace(rest[|rest| - 1])
    ensures Interpret(Spelling(n) + " " + rest, mode, env) == Dispatch(Spelling(n), rest, mode, env.host)
  {
    SpellingIsWord(n);
    TokeniseLine(Spelling(n), rest);
  }

  /** A line made of a string-rule name, a space and a rest that does not
      end in whitespace passes that rest, with any further leading spaces,
      as the rule's one parameter: `search tag:inbox` searches for
      `tag:inbox`, and `search  a` for ` a`. */
  lemma StringLine(n: Name, line: string, rest: string, mode: Mode, env: Env)
    requires n in {Search, Prompt, Refine, Retag, ShellEscape, ToggleTag}
    requires Registered(mode, n) && Spelling(n) !in env.aliases
    requires line == Spelling(n) + " " + rest
    requires rest == "" || !IsSpace(rest[|rest| - 1])
    requires n == ToggleTag ==> rest != ""
    ensures Interpret(line, mode, env) == Built(Command(
      Registration(n).kind, map[StringKey(n) := Lit(Str(rest))],
      Get(env.host.hooks, "pre_" + Spelling(n)), Get(env.host.hooks, "post_" + Spelling(n)), false))
  {
    TypedLine(n, rest, mode, env);
    StringParameter(n, rest, mode, env.host);
  }

  /** A command name typed alone reaches the mode check with an empty rest. */
  lemma TypedName(n: Name, mode: Mode, env: Env)
    requires Spelling(n) !in env.aliases
    ensures Interpret(Spelling(n), mode, env) == Dispatch(Spelling(n), "", mode, env.host)
  {
    SpellingIsWord(n);
    TypedWord(Spelling(n), mode, env);
  }

  lemma TypedWord(w: string, mode: Mode, env: Env)
    requires Word(w) && w !in env.aliases
    ensures Interpret(w, mode, env) == Dispatch(w, "", mode, env.host)
  {
    TokeniseWord(w);
  }

  /** Aliases are expanded once: when `a` is an alias for the word `b`, the
      line `a` is the line `b` read with no aliases at all, so an alias
      defined for `b` is never used. */
  lemma AliasAppliedOnce(a: string, mode: Mode, env: Env)
    requires a != "" && NoSpace(a) && a in env.aliases && Word(env.aliases[a])
    ensures Interpret(a, mode, env) == Interpret(env.aliases[a], mode, env.(aliases := map[]))
  {
    TokeniseWord(a);
    TokeniseWord(env.aliases[a]);
  }

  /** The `!` rewrite comes after alias expansion, so an alias may expand
      to `!cmd` with spaces in it: the whole expansion after the `!`, plus
      a space, becomes the `shellescape` command string (an alias to
      `!ls -la` runs `ls -la `). */
  lemma AliasToBang(a: string, cmd: string, mode: Mode, env: Env)
    requires a != "" && NoSpace(a) && a in env.aliases && env.aliases[a] == "!" + cmd
    ensures Interpret(a, mode, env) == Built(Command(
      ExternalCommand, map["commandstring" := Lit(Str(cmd + " "))],
      Get(env.host.hooks, "pre_" + Spelling(ShellEscape)), Get(env.host.hooks, "post_" + Spelling(ShellEscape)), false))
  {
    TokeniseWord(a);
    assert ("!" + cmd)[1..] == cmd;
    assert cmd + " " + "" == cmd + " ";
    ShellescapeCommand(cmd + " ", mode, env.host);
  }

  /** `!cmd rest` runs `cmd rest` through `shellescape`, in every mode; a
      bare `!cmd` leaves a trailing space on the command string. */
  lemma BangLine(cmd: string, rest: string, mode: Mode, env: Env)
    requires ' ' !in cmd && Stripped("!" + cmd) && "!" + cmd !in env.aliases
    requires rest == "" || !IsSpace(rest[|rest| - 1])
    ensures Interpret("!" + cmd + " " + rest, mode, env) == Built(Command(
      ExternalCommand, map["commandstring" := Lit(Str(cmd + " " + rest))],
      Get(env.host.hooks, "pre_" + Spelling(ShellEscape)), Get(env.host.hooks, "post_" + Spelling(ShellEscape)), false))
  {
    BangReachesShellescape(cmd, rest, mode, env);
    ShellescapeCommand(cmd + " " + rest, mode, env.host);
  }

  /** `shellescape` passes its whole parameter as the command string. */
  lemma ShellescapeCommand(s: string, mode: Mode, host: Host)
    ensures Dispatch(Spelling(ShellEscape), s, mode, host) == Built(Command(
      ExternalCommand, map["commandstring" := Lit(Str(s))],
      Get(host.hooks, "pre_" + Spelling(ShellEscape)), Get(host.hooks, "post_" + Spelling(ShellEscape)), false))
  {
    StringParameter(ShellEscape, s, mode, host);
  }

  /** `!cmd` alone runs `cmd` with a trailing space, in every mode. */
  lemma BangWord(cmd: string, mode: Mode, env: Env)
    requires cmd != "" && NoSpace(cmd) && "!" + cmd !in env.aliases
    ensures Interpret("!" + cmd, mode, env) == Built(Command(
      ExternalCommand, map["commandstring" := Lit(Str(cmd + " "))],
      Get(env.host.hooks, "pre_" + Spelling(ShellEscape)), Get(env.host.hooks, "post_" + Spelling(ShellEscape)), false))
  {
    var w := "!" + cmd;
    assert forall i :: 1 <= i < |w| ==> w[i] == cmd[i - 1];
    assert NoSpace(w);
    TokeniseWord(w);
    assert w[1..] == cmd;
    assert cmd + " " + "" == cmd + " ";
    ShellescapeCommand(cmd + " ", mode, env.host);
  }

  lemma BangReachesShellescape(cmd: string, rest: string, mode: Mode, env: Env)
    requires ' ' !in cmd && Stripped("!" + cmd) && "!" + cmd !in env.aliases
    requires rest == "" || !IsSpace(rest[|rest| - 1])
    ensures Interpret("!" + cmd + " " + rest, mode, env) == Dispatch(Spelling(ShellEscape), cmd + " " + rest, mode, env.host)
  {
    var name := "!" + cmd;
    assert ' ' !in name;
    TokeniseLine(name, rest);
    assert name[1..] == cmd;
  }
}

=== FILE: registry.dfy ===
/** The static command table: for each mode, command name to command class
    and default parameters. */
module Registry {
  import opened Basics

  /** The interactive context the UI is in. */
  datatype Mode = GlobalMode | SearchMode | ThreadMode | EnvelopeMode | BufferlistMode | TaglistMode

  /** The command classes that appear in the table. */
  datatype Kind =
    | ExitCommand | OpenThreadCommand | SearchCommand | PromptCommand | RefreshCommand
    | ExternalCommand | EditCommand | PythonShellCommand | BufferCloseCommand
    | BufferFocusCommand | OpenBufferlistCommand | TagListCommand | CommandPromptCommand
    | FlushCommand | ToggleThreadTagCommand | ComposeCommand | RetagPromptCommand
    | RetagCommand | RefineCommand | RefinePromptCommand | ReplyCommand | ForwardCommand
    | BounceMailCommand | FoldMessagesCommand | EnvelopeEditCommand | EnvelopeSetCommand
    | EnvelopeSendCommand | TaglistSelectCommand

  /** Every command name some mode registers. A string that spells none of
      them is in no table. */
  datatype Name =
    | Refine | RefinePrompt | OpenThread | ToggleTag | Retag | RetagPrompt
    | Send | Reedit | Subject | To
    | CloseFocussed | OpenFocussed
    | Select
    | Reply | GroupReply | Forward | Bounce | Fold | Unfold
    | BNext | BPrevious | BufferList | Close | CommandPrompt | Compose | Edit | Exit
    | Flush | Prompt | PyShell | Refresh | Search | ShellEscape | TagList

  /** The text of each name, as typed on the command line. */
  function Spelling(n: Name): string {
    match n
    case Refine => "refine"
    case RefinePrompt => "refineprompt"
    case OpenThread => "openthread"
    case ToggleTag => "toggletag"
    case Retag => "retag"
    case RetagPrompt => "retagprompt"
    case Send => "send"
    case Reedit => "reedit"
    case Subject => "subject"
    case To => "to"
    case CloseFocussed => "closefocussed"
    case OpenFocussed => "openfocussed"
    case Select => "select"
    case Reply => "reply"
    case GroupReply => "groupreply"
    case Forward => "forward"
    case Bounce => "bounce"
    case Fold => "fold"
    case Unfold => "unfold"
    case BNext => "bnext"
    case BPrevious => "bprevious"
    case BufferList => "bufferlist"
    case Close => "close"
    case CommandPrompt => "commandprompt"
    case Compose => "compose"
    case Edit => "edit"
    case Exit => "exit"
    case Flush => "flush"
    case Prompt => "prompt"
    case PyShell => "pyshell"
    case Refresh => "refresh"
    case Search => "search"
    case ShellEscape => "shellescape"
    case TagList => "taglist"
  }

  /** The name a string spells, if any. The dispatch on length and first
      character only keeps each comparison small: every answer is checked
      against `Spelling`. */
  function Recognise(s: string): (r: Option<Name>)
    ensures r.Some? ==> Spelling(r.value) == s
  {
    if |s| == 2 then RecogniseLength2(s)
    else if |s| == 4 then RecogniseLength4(s)
    else if |s| == 5 then RecogniseLength5(s)
    else if |s| == 6 then RecogniseLength6(s)
    else if |s| == 7 then RecogniseLength7(s)
    else if |s| == 9 then RecogniseLength9(s)
    else if |s| == 10 then RecogniseLength10(s)
    else if |s| == 11 then RecogniseLength11(s)
    else if |s| == 12 then RecogniseLength12(s)
    else if |s| == 13 then RecogniseLength13(s)
    else None
  }

  function RecogniseLength2(s: string): (r: Option<Name>)
    requires |s| == 2
    ensures r.Some? ==> Spelling(r.value) == s
  {
    if Spelling(To) == s then Some(To)
    else None
  }

  function RecogniseLength4(s: string): (r: Option<Name>)
    requires |s| == 4
    ensures r.Some? ==> Spelling(r.value) == s
  {
    if s[0] == 'e' then
      if Spelling(Edit) == s then Some(Edit)
      else if Spelling(Exit) == s then Some(Exit)
      else None
    else if s[0] == 'f' then
      if Spelling(Fold) == s then Some(Fold)
      else None
    else if s[0] == 's' then
      if Spelling(Send) == s then Some(Send)
      else None
    else None
  }

  function RecogniseLength5(s: string): (r: Option<Name>)
    requires |s| == 5
    ensures r.Some? ==> Spelling(r.value) == s
  {
    if s[0] == 'b' then
      if Spelling(BNext) == s then Some(BNext)
      else None
    else if s[0] == 'c' then
      if Spelling(Close) == s then Some(Close)
      else None
    else if s[0] == 'f' then
      if Spelling(Flush) == s then Some(Flush)
      else None
    else if s[0] == 'r' then
      if Spelling(Reply) == s then Some(Reply)
      else if Spelling(Retag) == s then Some(Retag)
      else None
    else None
  }

  function RecogniseLength6(s: string): (r: Option<Name>)
    requires |s| == 6
    ensures r.Some? ==> Spelling(r.value) == s
  {
    if s[0] == 'b' then
      if Spelling(Bounce) == s then Some(Bounce)
      else None
    else if s[0] == 'p' then
      if Spelling(Prompt) == s then Some(Prompt)
      else None
    else if s[0] == 'r' then
      if Spelling(Reedit) == s then Some(Reedit)
      else if Spelling(Refine) == s then Some(Refine)
      else None
    else if s[0] == 's' then
      if Spelling(Search) == s then Some(Search)
      else if Spelling(Select) == s then Some(Select)
      else None
    else if s[0] == 'u' then
      if Spelling(Unfold) == s then Some(Unfold)
      else None
    else None
  }

  function RecogniseLength7(s: string): (r: Option<Name>)
    requires |s| == 7
    ensures r.Some? ==> Spelling(r.value) == s
  {
    if s[0] == 'c' then
      if Spelling(Compose) == s then Some(Compose)
      else None
    else if s[0] == 'f' then
      if Spelling(Forward) == s then Some(Forward)
      else None
    else if s[0] == 'p' then
      if Spelling(PyShell) == s then Some(PyShell)
      else None
    else if s[0] == 'r' then
      if Spelling(Refresh) == s then Some(Refresh)
      else None
    else if s[0] == 's' then
      if Spelling(Subject) == s then Some(Subject)
      else None
    else if s[0] == 't' then
      if Spelling(TagList) == s then Some(TagList)
      else None
    else None
  }

  function RecogniseLength9(s: string): (r: Option<Name>)
    requires |s| == 9
    ensures r.Some? ==> Spelling(r.value) == s
  {
    if s[0] == 'b' then
      if Spelling(BPrevious) == s then Some(BPrevious)
      else None
    else if s[0] == 't' then
      if Spelling(ToggleTag) == s then Some(ToggleTag)
      else None
    else None
  }

  function RecogniseLength10(s: string): (r: Option<Name>)
    requires |s| == 10
    ensures r.Some? ==> Spelling(r.value) == s
  {
    if s[0] == 'b' then
      if Spelling(BufferList) == s then Some(BufferList)
      else None
    else if s[0] == 'g' then
      if Spelling(GroupReply) == s then Some(GroupReply)
      else None
    else if s[0] == 'o' then
      if Spelling(OpenThread) == s then Some(OpenThread)
      else None
    else None
  }

  function RecogniseLength11(s: string): (r: Option<Name>)
    requires |s| == 11
    ensures r.Some? ==> Spelling(r.value) == s
  {
    if s[0] == 'r' then
      if Spelling(RetagPrompt) == s then Some(RetagPrompt)
      else None
    else if s[0] == 's' then
      if Spelling(ShellEscape) == s then Some(ShellEscape)
      else None
    else None
  }

  function RecogniseLength12(s: string): (r: Option<Name>)
    requires |s| == 12
    ensures r.Some? ==> Spelling(r.value) == s
  {
    if s[0] == 'o' then
      if Spelling(OpenFocussed) == s then Some(OpenFocussed)
      else None
    else if s[0] == 'r' then
      if Spelling(RefinePrompt) == s then Some(RefinePrompt)
      else None
    else None
  }

  function RecogniseLength13(s: string): (r: Option<Name>)
    requires |s| == 13
    ensures r.Some? ==> Spelling(r.value) == s
  {
    if Spelling(CloseFocussed) == s then Some(CloseFocussed)
    else if Spelling(CommandPrompt) == s then Some(CommandPrompt)
    else None
  }

  /** Every name is recognised from its own spelling. */
  lemma RecogniseSpelling(n: Name)
    ensures Recognise(Spelling(n)) == Some(n)
  {
    if n in {To, Edit, Exit} {
      RecogniseToEditExit(n);
    } else if n in {Fold, Send} {
      RecogniseFoldSend(n);
    } else if n in {BNext, Close, Flush} {
      RecogniseBNextCloseFlush(n);
    } else if n in {Reply, Retag} {
      RecogniseReplyRetag(n);
    } else if n in {Bounce, Prompt, Reedit} {
      RecogniseBouncePromptReedit(n);
    } else if n in {Refine, Search} {
      RecogniseRefineSearch(n);
    } else if n in {Select, Unfold} {
      RecogniseSelectUnfold(n);
    } else if n in {Compose, Forward, PyShell} {
      RecogniseComposeForwardPyShell(n);
    } else if n in {Refresh, Subject, TagList} {
      RecogniseRefreshSubjectTagList(n);
    } else if n in {BPrevious, ToggleTag, BufferList} {
      RecogniseBPreviousToggleTagBufferList(n);
    } else if n in {GroupReply, OpenThread, RetagPrompt} {
      RecogniseGroupReplyOpenThreadRetagPrompt(n);
    } else if n in {ShellEscape, OpenFocussed} {
      RecogniseShellEscapeOpenFocussed(n);
    } else {
      RecogniseRefinePromptCloseFocussedCommandPrompt(n);
    }
  }

  lemma RecogniseToEditExit(n: Name)
    requires n in {To, Edit, Exit}
    ensures Recognise(Spelling(n)) == Some(n)
  {
  }

  lemma RecogniseFoldSend(n: Name)
    requires n in {Fold, Send}
    ensures Recognise(Spelling(n)) == Some(n)
  {
  }

  lemma RecogniseBNextCloseFlush(n: Name)
    requires n in {BNext, Close, Flush}
    ensures Recognise(Spelling(n)) == Some(n)
  {
  }

  lemma RecogniseReplyRetag(n: Name)
    requires n in {Reply, Retag}
    ensures Recognise(Spelling(n)) == Some(n)
  {
  }

  lemma RecogniseBouncePromptReedit(n: Name)
    requires n in {Bounce, Prompt, Reedit}
    ensures Recognise(Spelling(n)) == Some(n)
  {
  }

  lemma RecogniseRefineSearch(n: Name)
    requires n in {Refine, Search}
    ensures Recognise(Spelling(n)) == Some(n)
  {
  }

  lemma RecogniseSelectUnfold(n: Name)
    requires n in {Select, Unfold}
    ensures Recognise(Spelling(n)) == Some(n)
  {
  }

  lemma RecogniseComposeForwardPyShell(n: Name)
    requires n in {Compose, Forward, PyShell}
    ensures Recognise(Spelling(n)) == Some(n)
  {
  }

  lemma RecogniseRefreshSubjectTagList(n: Name)
    requires n in {Refresh, Subject, TagList}
    ensures Recognise(Spelling(n)) == Some(n)
  {
  }

  lemma RecogniseBPreviousToggleTagBufferList(n: Name)
    requires n in {BPrevious, ToggleTag, BufferList}
    ensures Recognise(Spelling(n)) == Some(n)
  {
  }

  lemma RecogniseGroupReplyOpenThreadRetagPrompt(n: Name)
    requires n in {GroupReply, OpenThread, RetagPrompt}
    ensures Recognise(Spelling(n)) == Some(n)
  {
  }

  lemma RecogniseShellEscapeOpenFocussed(n: Name)
    requires n in {ShellEscape, OpenFocussed}
    ensures Recognise(Spelling(n)) == Some(n)
  {
  }

  lemma RecogniseRefinePromptCloseFocussedCommandPrompt(n: Name)
    requires n in {RefinePrompt, CloseFocussed, CommandPrompt}
    ensures Recognise(Spelling(n)) == Some(n)
  {
  }

  /** Text is recognised exactly when it spells a name. */
  lemma RecogniseComplete(s: string)
    ensures Recognise(s).None? <==> forall n: Name :: Spelling(n) != s
  {
    if Recognise(s).None? {
      forall n: Name ensures Spelling(n) != s {
        RecogniseSpelling(n);
      }
    }
  }

  /** The plain Python values that appear as parameters. */
  datatype Value = Str(s: string) | Bool(b: bool) | Int(i: int) | Dict(d: map<string, string>)

  /** A parameter value: a literal, or a zero-argument callable (named by
      `producer`) that the factory evaluates when it comes from the call site. */
  datatype Arg = Lit(value: Value) | Deferred(producer: string)

  /** One registered command: its class and its default parameters. */
  datatype Entry = Entry(kind: Kind, defaults: map<string, Arg>)

  /** The keyword parameters a class's own constructor names, before
      `**kwargs` (which ends in `Command.__init__`). */
  function Parameters(k: Kind): set<string> {
    match k
    case OpenThreadCommand => {"thread"}
    case SearchCommand => {"query", "force_new"}
    case PromptCommand => {"startstring"}
    case ExternalCommand => {"commandstring", "spawn", "refocus", "in_thread", "on_success"}
    case EditCommand => {"path", "spawn"}
    case BufferCloseCommand => {"buffer", "focussed"}
    case BufferFocusCommand => {"buffer", "offset"}
    case OpenBufferlistCommand => {"filtfun"}
    case TagListCommand => {"filtfun"}
    case ToggleThreadTagCommand => {"tag", "thread"}
    case ComposeCommand => {"mail"}
    case RetagCommand => {"tagsstring"}
    case RefineCommand => {"query"}
    case ReplyCommand => {"groupreply"}
    case ForwardCommand => {"inline"}
    case FoldMessagesCommand => {"all", "visible"}
    case EnvelopeEditCommand => {"mail"}
    case EnvelopeSetCommand => {"key", "value", "replace"}
    case _ => {}
  }

  /** The mode whose table registers `n`. No name sits in two tables, so the
      nested table is the pair of this function and `Registration`. */
  function Home(n: Name): (m: Mode)
    ensures m == SearchMode <==>
              Registration(n).kind in {RefineCommand, RefinePromptCommand, OpenThreadCommand,
                                       ToggleThreadTagCommand, RetagCommand, RetagPromptCommand}
    ensures m == EnvelopeMode <==> Registration(n).kind in {EnvelopeSendCommand, EnvelopeEditCommand, EnvelopeSetCommand}
    ensures m == ThreadMode <==> Registration(n).kind in {ReplyCommand, ForwardCommand, BounceMailCommand, FoldMessagesCommand}
    ensures m == TaglistMode <==> Registration(n).kind == TaglistSelectCommand
    ensures m == BufferlistMode ==> Registration(n).kind in {BufferCloseCommand, BufferFocusCommand}
  {
    match n
    case Refine | RefinePrompt | OpenThread | ToggleTag | Retag | RetagPrompt => SearchMode
    case Send | Reedit | Subject | To => EnvelopeMode
    case CloseFocussed | OpenFocussed => BufferlistMode
    case Select => TaglistMode
    case Reply | GroupReply | Forward | Bounce | Fold | Unfold => ThreadMode
    case _ => GlobalMode
  }

  /** The class and defaults the table gives `n`. Every default is a plain
      value and names a parameter of the class's own constructor. */
  function Registration(n: Name): (e: Entry)
    ensures e.defaults.Keys <= Parameters(e.kind)
    ensures forall k :: k in e.defaults ==> e.defaults[k].Lit?
  {
    match n
    case Refine => Entry(RefineCommand, map[])
    case RefinePrompt => Entry(RefinePromptCommand, map[])
    case OpenThread => Entry(OpenThreadCommand, map[])
    case ToggleTag => Entry(ToggleThreadTagCommand, map["tag" := Lit(Str("inbox"))])
    case Retag => Entry(RetagCommand, map[])
    case RetagPrompt => Entry(RetagPromptCommand, map[])
    case Send => Entry(EnvelopeSendCommand, map[])
    case Reedit => Entry(EnvelopeEditCommand, map[])
    case Subject => Entry(EnvelopeSetCommand, map["key" := Lit(Str("Subject"))])
    case To => Entry(EnvelopeSetCommand, map["key" := Lit(Str("To"))])
    case CloseFocussed => Entry(BufferCloseCommand, map["focussed" := Lit(Bool(true))])
    case OpenFocussed => Entry(BufferFocusCommand, map[])
    case Select => Entry(TaglistSelectCommand, map[])
    case Reply => Entry(ReplyCommand, map[])
    case GroupReply => Entry(ReplyCommand, map["groupreply" := Lit(Bool(true))])
    case Forward => Entry(ForwardCommand, map[])
    case Bounce => Entry(BounceMailCommand, map[])
    case Fold => Entry(FoldMessagesCommand, map["visible" := Lit(Bool(true))])
    case Unfold => Entry(FoldMessagesCommand, map["visible" := Lit(Bool(false))])
    case BNext => Entry(BufferFocusCommand, map["offset" := Lit(Int(1))])
    case BPrevious => Entry(BufferFocusCommand, map["offset" := Lit(Int(-1))])
    case BufferList => Entry(OpenBufferlistCommand, map[])
    case Close => Entry(BufferCloseCommand, map[])
    case CommandPrompt => Entry(CommandPromptCommand, map[])
    case Compose => Entry(ComposeCommand, map[])
    case Edit => Entry(EditCommand, map[])
    case Exit => Entry(ExitCommand, map[])
    case Flush => Entry(FlushCommand, map[])
    case Prompt => Entry(PromptCommand, map[])
    case PyShell => Entry(PythonShellCommand, map[])
    case Refresh => Entry(RefreshCommand, map[])
    case Search => Entry(SearchCommand, map[])
    case ShellEscape => Entry(ExternalCommand, map[])
    case TagList => Entry(TagListCommand, map[])
  }

  /** `n in COMMANDS[m]`. */
  predicate InTable(m: Mode, n: Name) {
    Home(n) == m
  }

  /** A name is usable in mode `m` when that mode or `global` registers it. */
  predicate Registered(m: Mode, n: Name) {
    InTable(m, n) || InTable(GlobalMode, n)
  }

  /** `name in COMMANDS[m] or name in COMMANDS['global']`, on the typed text. */
  predicate Visible(m: Mode, name: string) {
    Recognise(name).Some? && Registered(m, Recognise(name).value)
  }

  /** The lookup of `commandfactory`: the mode's own table first, then
      `global`; text that spells no name is in neither. */
  function Lookup(m: Mode, name: string): (r: Option<Entry>)
    ensures r.Some? <==> Visible(m, name)
    ensures r.Some? ==> r.value == Registration(Recognise(name).value)
  {
    match Recognise(name)
    case None => None
    case Some(n) =>
      if InTable(m, n) then Some(Registration(n))
      else if InTable(GlobalMode, n) then Some(Registration(n))
      else None
  }

  /** A name of the global table is visible in every mode, under its
      global registration. */
  lemma GlobalEverywhere(m: Mode, n: Name)
    requires InTable(GlobalMode, n)
    ensures Lookup(m, Spelling(n)) == Some(Registration(n))
  {
    RecogniseSpelling(n);
  }

  /** A name of a mode's own table is visible in that mode only. */
  lemma ModeLocal(m: Mode, n: Name, other: Mode)
    requires m != GlobalMode && InTable(m, n)
    ensures Lookup(m, Spelling(n)) == Some(Registration(n))
    ensures Lookup(other, Spelling(n)).Some? <==> other == m
  {
    RecogniseSpelling(n);
  }
}

=== FILE: reply.dfy ===
/** The header arithmetic of `ReplyCommand`: the subject prefix, the
    threading headers (sections 3.6.4 and 3.6.5 of RFC 5322), the sender
    address, and the removal of the user's own addresses from a group reply. */
module Reply {
  import opened Basics
  import opened Text

  /** `s.startswith(p)`. */
  predicate StartsWith(s: string, p: string) {
    |p| <= |s| && s[..|p|] == p
  }

  /** The reply subject: `Re: ` in front, unless the subject already starts
      with `Re:`. */
  function ReplySubject(subject: string): (r: string)
    ensures StartsWith(r, "Re:")
    ensures StartsWith(subject, "Re:") ==> r == subject
    ensures !StartsWith(subject, "Re:") ==> StartsWith(r, "Re: ") && r[4..] == subject
  {
    if StartsWith(subject, "Re:") then subject
    else
      var r := "Re: " + subject;
      assert r[..3] == "Re:" && r[..4] == "Re: " && r[4..] == subject;
      r
  }

  /** Replying to a reply does not stack prefixes. */
  lemma ReplySubjectIdempotent(subject: string)
    ensures ReplySubject(ReplySubject(subject)) == ReplySubject(subject)
  {
  }

  /** The message-id list of the References header: the last eight prior ids,
      preceded by the first prior id when there were more than eight, then the
      id of the message replied to. */
  function ThreadIds(prior: seq<string>, id: string): (r: seq<string>)
    ensures |r| <= 10 && |r| >= 1
    ensures r[|r| - 1] == id
    ensures |prior| > 0 ==> r[0] == prior[0]
    ensures |prior| <= 8 ==> r == prior + [id]
    ensures |prior| > 8 ==> |r| == 10
  {
    var last := if |prior| <= 8 then prior else prior[|prior| - 8..];
    var kept := if |prior| > 8 then prior[..1] + last else last;
    kept + [id]
  }

  /** Every prior id among the last eight keeps its distance from the end, so
      the nearest ancestors are never dropped. */
  lemma ThreadIdsKeepRecent(prior: seq<string>, id: string, k: nat)
    requires 1 <= k <= |prior| && k <= 8
    ensures ThreadIds(prior, id)[|ThreadIds(prior, id)| - 1 - k] == prior[|prior| - k]
  {
  }

  /** The In-Reply-To header, `<msgid>`: the message id between `<` and
      `>`. It is also the last entry of the References header. */
  function InReplyTo(msgid: string): (r: string)
    ensures |r| == |msgid| + 2 && r[0] == '<' && r[|r| - 1] == '>'
    ensures r[1..|r| - 1] == msgid
  {
    "<" + msgid + ">"
  }

  /** The References header from the prior header (`None` when absent) and
      the replied message's id; an absent or empty prior header gives just the
      bracketed id. */
  function References(prior: Option<string>, msgid: string): (r: string)
    ensures prior.None? || prior == Some("") ==> r == InReplyTo(msgid)
  {
    if prior.Some? && prior.value != "" then Join(" ", ThreadIds(Words(prior.value), InReplyTo(msgid)))
    else InReplyTo(msgid)
  }

  /** Reading the References header back word by word gives the trimmed id
      list, whose last entry is the In-Reply-To header, for any id without
      whitespace. */
  lemma ReferencesReadBack(prior: Option<string>, msgid: string)
    requires NoSpace(msgid)
    ensures Words(References(prior, msgid)) == ThreadIds(Words(prior.GetOr("")), InReplyTo(msgid))
    ensures var ws := Words(References(prior, msgid)); |ws| <= 10 && ws[|ws| - 1] == InReplyTo(msgid)
  {
    var b := InReplyTo(msgid);
    InReplyToWord(msgid);
    if prior.Some? && prior.value != "" {
      var ids := ThreadIds(Words(prior.value), b);
      ThreadIdsWords(Words(prior.value), b);
      assert References(prior, msgid) == Join(" ", ids);
      WordsJoin(ids);
    } else {
      assert References(prior, msgid) == b;
      assert Words("") == [];
      assert ThreadIds(Words(prior.GetOr("")), b) == [b];
      WordsJoin([b]);
      assert Join(" ", [b]) == b;
    }
  }

  lemma InReplyToWord(msgid: string)
    requires NoSpace(msgid)
    ensures InReplyTo(msgid) != "" && NoSpace(InReplyTo(msgid))
  {
    var b := InReplyTo(msgid);
    forall i | 0 <= i < |b| ensures !IsSpace(b[i]) {
      if 0 < i < |b| - 1 {
        assert b[i] == msgid[i - 1];
      }
    }
  }

  lemma ThreadIdsWords(ws: seq<string>, b: string)
    requires forall k :: 0 <= k < |ws| ==> ws[k] != "" && NoSpace(ws[k])
    requires b != "" && NoSpace(b)
    ensures var ids := ThreadIds(ws, b);
      forall k :: 0 <= k < |ids| ==> ids[k] != "" && NoSpace(ids[k])
  {
    var ids := ThreadIds(ws, b);
    forall k | 0 <= k < |ids| ensures ids[k] != "" && NoSpace(ids[k]) {
      if k < |ids| - 1 {
        assert ids[k] in ws;
      }
    }
  }

  /** `a in s` for some address `a` of `mine`. */
  predicate Mentions(mine: seq<string>, s: string) {
    exists a :: a in mine && IsSubstring(a, s)
  }

  /** Index of the first address of `mine` that occurs in `s`. */
  function MentionIndex(mine: seq<string>, s: string): (r: Option<nat>)
    ensures r.None? <==> !Mentions(mine, s)
    ensures r.Some? ==> r.value < |mine| && IsSubstring(mine[r.value], s)
    ensures r.Some? ==> forall j :: 0 <= j < r.value ==> !IsSubstring(mine[j], s)
  {
    if |mine| == 0 then None
    else if IsSubstring(mine[0], s) then Some(0)
    else
      match MentionIndex(mine[1..], s)
      case None =>
        assert !Mentions(mine, s) by {
          forall a | a in mine ensures !IsSubstring(a, s) {
            if a != mine[0] {
              assert a in mine[1..];
            }
          }
        }
        None
      case Some(i) =>
        assert forall j :: 1 <= j < i + 1 ==> mine[j] == mine[1..][j - 1];
        Some(i + 1)
  }

  /** The first address of `mine` that occurs in `s` (the head of the
      source's list comprehension over `my_addresses`). */
  function FirstMention(mine: seq<string>, s: string): (r: Option<string>)
    ensures r.None? <==> !Mentions(mine, s)
    ensures r.Some? ==> r.value in mine && IsSubstring(r.value, s)
    ensures r.Some? ==> exists i :: 0 <= i < |mine| && mine[i] == r.value &&
                          forall j :: 0 <= j < i ==> !IsSubstring(mine[j], s)
  {
    match MentionIndex(mine, s)
    case None => None
    case Some(i) => Some(mine[i])
  }

  /** The address the reply is sent from: the first own address found in
      the `To` header, or else the first found in `Cc` followed by `Bcc`;
      `""` when there is none. An own address that is itself `""` occurs
      everywhere and so is found first, blocking the second search. */
  function MatchedAddress(mine: seq<string>, to: string, cc: string, bcc: string): (r: string)
    ensures Mentions(mine, to) ==> r == FirstMention(mine, to).value
    ensures !Mentions(mine, to) && Mentions(mine, cc + bcc) ==> r == FirstMention(mine, cc + bcc).value
    ensures !Mentions(mine, to) && !Mentions(mine, cc + bcc) ==> r == ""
    ensures r != "" ==> r in mine
  {
    match FirstMention(mine, to)
    case Some(a) => a
    case None => FirstMention(mine, cc + bcc).GetOr("")
  }

  /** The entries of `entries` that mention no own address, stripped. */
  function KeepForeign(mine: seq<string>, entries: seq<string>): (r: seq<string>)
    ensures |r| <= |entries|
    ensures forall k :: 0 <= k < |r| ==> !Mentions(mine, r[k])
  {
    if |entries| == 0 then []
    else
      var rest := KeepForeign(mine, entries[1..]);
      if Mentions(mine, entries[0]) then rest
      else
        StripKeepsForeign(mine, entries[0]);
        [Strip(entries[0])] + rest
  }

  /** Clearing a list is clearing its parts, one after the other: the kept
      entries stay in their order and a repeated entry is kept as often as
      it occurs. */
  lemma {:induction false} KeepForeignAppend(mine: seq<string>, a: seq<string>, b: seq<string>)
    ensures KeepForeign(mine, a + b) == KeepForeign(mine, a) + KeepForeign(mine, b)
    decreases |a|
  {
    if |a| == 0 {
      assert a + b == b;
    } else {
      assert (a + b)[0] == a[0];
      assert (a + b)[1..] == a[1..] + b;
      KeepForeignAppend(mine, a[1..], b);
    }
  }

  lemma StripKeepsForeign(mine: seq<string>, s: string)
    requires !Mentions(mine, s)
    ensures !Mentions(mine, Strip(s))
  {
    forall a | a in mine ensures !IsSubstring(a, Strip(s)) {
      if IsSubstring(a, Strip(s)) {
        SubstringOfStrip(a, s);
      }
    }
  }

  /** An address as it can stand in a header: non-empty, without a comma,
      and not starting with a space. */
  predicate PlainAddress(a: string) {
    a != "" && ',' !in a && a[0] != ' '
  }

  /** No plain address of `mine` occurs anywhere in `s`. */
  predicate NoOwnAddress(mine: seq<string>, s: string) {
    forall a :: a in mine && PlainAddress(a) ==> !IsSubstring(a, s)
  }

  /** `clear_my_address`: the comma-separated entries of `value` that
      mention none of `mine`, stripped and joined with `, `. The cleared
      header mentions no plain own address at all, not even across the
      joins. */
  function ClearMyAddress(mine: seq<string>, value: string): (r: string)
    ensures NoOwnAddress(mine, r)
  {
    var kept := KeepForeign(mine, Split(value, ','));
    assert NoOwnAddress(mine, Join(", ", kept)) by {
      forall a | a in mine && PlainAddress(a) ensures !IsSubstring(a, Join(", ", kept)) {
        JoinAvoids(a, kept);
      }
    }
    Join(", ", kept)
  }

  /** A slice inside the first part of a concatenation. */
  lemma SliceOfPrefix(x: string, y: string, i: nat, j: nat)
    requires i <= j <= |x|
    ensures (x + y)[i..j] == x[i..j]
  {
    assert forall k :: i <= k < j ==> (x + y)[k] == x[k];
  }

  /** A slice inside the second part of a concatenation. */
  lemma SliceOfSuffix(x: string, y: string, i: nat, j: nat)
    requires |x| <= i <= j <= |x| + |y|
    ensures (x + y)[i..j] == y[i - |x|..j - |x|]
  {
    assert forall k :: i <= k < j ==> (x + y)[k] == y[k - |x|];
  }

  /** A plain address that occurs in no part does not occur in the parts
      joined with `, `: it cannot straddle the comma or start at the space. */
  lemma {:induction false} JoinAvoids(a: string, parts: seq<string>)
    requires PlainAddress(a)
    requires forall k :: 0 <= k < |parts| ==> !IsSubstring(a, parts[k])
    ensures !IsSubstring(a, Join(", ", parts))
    decreases |parts|
  {
    if |parts| >= 2 {
      var p := parts[0];
      var t := Join(", ", parts[1..]);
      JoinAvoids(a, parts[1..]);
      var s := p + ", " + t;
      assert Join(", ", parts) == s;
      assert s == p + (", " + t);
      assert s == (p + ", ") + t;
      forall i: nat | i <= |s| ensures !OccursAt(a, s, i) {
        if i + |a| <= |s| {
          var w := s[i..i + |a|];
          if i + |a| <= |p| {
            SliceOfPrefix(p, ", " + t, i, i + |a|);
            assert !OccursAt(a, p, i);
          } else if i <= |p| {
            assert w[|p| - i] == s[|p|] == ',';
            assert a[|p| - i] in a;
          } else if i == |p| + 1 {
            assert w[0] == s[|p| + 1] == ' ';
          } else {
            SliceOfSuffix(p + ", ", t, i, i + |a|);
            assert !OccursAt(a, t, i - (|p| + 2));
          }
        }
      }
    }
  }

  /** A value survives exactly when it is the stripped form of an entry
      that mentions no own address. */
  lemma {:induction false} KeepForeignMembership(mine: seq<string>, entries: seq<string>, x: string)
    ensures x in KeepForeign(mine, entries) <==>
      exists i :: 0 <= i < |entries| && !Mentions(mine, entries[i]) && x == Strip(entries[i])
    decreases |entries|
  {
    if |entries| > 0 {
      KeepForeignMembership(mine, entries[1..], x);
      if x in KeepForeign(mine, entries[1..]) {
        var i :| 0 <= i < |entries[1..]| && !Mentions(mine, entries[1..][i]) && x == Strip(entries[1..][i]);
        assert entries[i + 1] == entries[1..][i];
      }
      if exists i :: 0 <= i < |entries| && !Mentions(mine, entries[i]) && x == Strip(entries[i]) {
        var i :| 0 <= i < |entries| && !Mentions(mine, entries[i]) && x == Strip(entries[i]);
        if i > 0 {
          assert entries[1..][i - 1] == entries[i];
        }
      }
    }
  }

  /** Every entry stripped, in order. */
  function StripAll(entries: seq<string>): (r: seq<string>)
    ensures |r| == |entries|
    ensures forall k :: 0 <= k < |r| ==> r[k] == Strip(entries[k])
  {
    if |entries| == 0 then [] else [Strip(entries[0])] + StripAll(entries[1..])
  }

  /** With no own addresses nothing is dropped: every entry is only stripped. */
  lemma {:induction false} KeepForeignNothingMine(entries: seq<string>)
    ensures KeepForeign([], entries) == StripAll(entries)
    decreases |entries|
  {
    if |entries| > 0 {
      KeepForeignNothingMine(entries[1..]);
      assert !Mentions([], entries[0]);
    }
  }

  /** `clear_my_address` with no own addresses strips each entry and
      rejoins them with `, `. */
  lemma ClearNothingMine(value: string)
    ensures ClearMyAddress([], value) == Join(", ", StripAll(Split(value, ',')))
  {
    KeepForeignNothingMine(Split(value, ','));
  }

  /** The recipient headers of a reply. */
  datatype Recipients = Recipients(to: string, cc: Option<string>, bcc: Option<string>)

  /** The recipients of a reply: the original sender; for a group reply
      also the original `To` entries other than the user's own addresses,
      and the original `Cc` and `Bcc` headers, when present, cleared the
      same way. */
  function ReplyRecipients(groupreply: bool, mine: seq<string>, from: string, to: string,
                           cc: Option<string>, bcc: Option<string>): (r: Recipients)
    ensures !groupreply ==> r == Recipients(from, None, None)
    ensures groupreply && ClearMyAddress(mine, to) != "" ==> r.to == from + ", " + ClearMyAddress(mine, to)
    ensures groupreply && ClearMyAddress(mine, to) == "" ==> r.to == from
    ensures groupreply ==> (r.cc.Some? <==> cc.Some?) && (r.bcc.Some? <==> bcc.Some?)
    ensures groupreply && cc.Some? ==> r.cc == Some(ClearMyAddress(mine, cc.value))
    ensures groupreply && bcc.Some? ==> r.bcc == Some(ClearMyAddress(mine, bcc.value))
    ensures StartsWith(r.to, from)
    ensures groupreply ==> NoOwnAddress(mine, r.to[|from|..])
    ensures groupreply && r.cc.Some? ==> NoOwnAddress(mine, r.cc.value)
    ensures groupreply && r.bcc.Some? ==> NoOwnAddress(mine, r.bcc.value)
  {
    if groupreply then
      var cleared := ClearMyAddress(mine, to);
      var tail := if cleared != "" then ", " + cleared else "";
      SenderFirst(mine, from, cleared);
      Recipients(
        from + tail,
        if cc.Some? then Some(ClearMyAddress(mine, cc.value)) else None,
        if bcc.Some? then Some(ClearMyAddress(mine, bcc.value)) else None)
    else
      assert from[..|from|] == from;
      Recipients(from, None, None)
  }

  /** The group-reply `To` header starts with the sender, and what follows
      the sender mentions no plain own address when the cleared list does
      not. */
  lemma SenderFirst(mine: seq<string>, from: string, cleared: string)
    requires NoOwnAddress(mine, cleared)
    ensures var to := from + (if cleared != "" then ", " + cleared else "");
      StartsWith(to, from) && NoOwnAddress(mine, to[|from|..])
  {
    var tail := if cleared != "" then ", " + cleared else "";
    forall a | a in mine && PlainAddress(a) ensures !IsSubstring(a, tail) {
      if cleared != "" {
        assert Join(", ", ["", cleared]) == tail;
        JoinAvoids(a, ["", cleared]);
      }
    }
    assert (from + tail)[..|from|] == from && (from + tail)[|from|..] == tail;
  }

  /** With no own addresses a group reply goes to the sender and to every
      original recipient, each entry stripped. */
  lemma GroupReplyNothingMine(from: string, to: string)
    ensures var cleared := Join(", ", StripAll(Split(to, ',')));
      cleared != "" ==> ReplyRecipients(true, [], from, to, None, None).to == from + ", " + cleared
  {
    ClearNothingMine(to);
  }
}

=== FILE: scenarios.dfy ===
/** Command lines read end to end, as a user would type them. */
module Scenarios {
  import opened Basics
  import opened Text
  import opened Registry
  import opened Factory
  import opened Interpreter

  /** `!ls -la` runs `ls -la`. */
  lemma BangWithArguments(mode: Mode, env: Env)
    requires "!ls" !in env.aliases
    ensures Interpret("!ls -la", mode, env).Built?
    ensures Interpret("!ls -la", mode, env).cmd.kind == ExternalCommand
    ensures Interpret("!ls -la", mode, env).cmd.args == map["commandstring" := Lit(Str("ls -la"))]
  {
    assert "!" + "ls" == "!ls";
    assert "!" + "ls" + " " + "-la" == "!ls -la";
    assert "ls" + " " + "-la" == "ls -la";
    assert Stripped("!" + "ls");
    BangLine("ls", "-la", mode, env);
  }

  /** `!ls` alone runs `ls ` with a trailing space. */
  lemma BangAlone(mode: Mode, env: Env)
    requires "!ls" !in env.aliases
    ensures Interpret("!ls", mode, env).Built?
    ensures Interpret("!ls", mode, env).cmd.args == map["commandstring" := Lit(Str("ls "))]
  {
    assert "!" + "ls" == "!ls";
    assert "ls" + " " == "ls ";
    BangWord("ls", mode, env);
  }

  /** A parameterless command followed by text, such as
      `exit extra-garbage`, is no command. */
  lemma BareNameWithText(n: Name, rest: string, mode: Mode, env: Env)
    requires Bare(n) && !HasRule(n) && Registered(mode, n) && Spelling(n) !in env.aliases
    requires rest != "" && !IsSpace(rest[|rest| - 1])
    ensures Interpret(Spelling(n) + " " + rest, mode, env) == NoCommand
  {
    TypedLine(n, rest, mode, env);
    BareOnlyEmpty(n, rest, mode, env.host);
  }

  /** A word that is not an alias and spells no command is no command, in
      every mode. */
  lemma UnknownWord(w: string, mode: Mode, env: Env)
    requires Word(w) && w !in env.aliases && Recognise(w) == None
    ensures Interpret(w, mode, env) == NoCommand
  {
    TypedWord(w, mode, env);
  }

  /** A name of one mode's own table, such as `reply`, is no command in
      any other mode. */
  lemma LocalNameElsewhere(n: Name, mode: Mode, env: Env)
    requires Home(n) != GlobalMode && mode != Home(n) && Spelling(n) !in env.aliases
    ensures Interpret(Spelling(n), mode, env) == NoCommand
  {
    TypedName(n, mode, env);
    ModeLocal(Home(n), n, mode);
    assert !Visible(mode, Spelling(n));
  }

  /** `toggletag` with nothing after it fails the tag assertion. */
  lemma ToggletagWithoutTag(env: Env)
    requires Spelling(ToggleTag) !in env.aliases
    ensures Interpret(Spelling(ToggleTag), SearchMode, env) == Raised(EmptyTag)
  {
    TypedName(ToggleTag, SearchMode, env);
    RecogniseSpelling(ToggleTag);
  }

  /** An alias to a word that spells no command is no command, even when
      that word is an alias for a command in turn: aliases do not chain. */
  lemma AliasChainNotFollowed(a: string, mode: Mode, env: Env)
    requires Word(a) && a in env.aliases
    requires Word(env.aliases[a]) && Recognise(env.aliases[a]) == None
    ensures Interpret(a, mode, env) == NoCommand
  {
    AliasAppliedOnce(a, mode, env);
    UnknownWord(env.aliases[a], mode, env.(aliases := map[]));
  }
}

=== FILE: tagging.dfy ===
/** The effects of the tagging and search-buffer commands: toggling a tag,
    parsing the `retag` tag list, refining a query, and retrying a flush of
    a locked index. */
module Tagging {
  import opened Basics
  import opened Text
  import opened Registry
  import opened Factory
  import opened Interpreter

  /** `ToggleThreadTagCommand.apply`: remove `tag` when the thread has it,
      add it otherwise. */
  function Toggle(tags: set<string>, tag: string): (r: set<string>)
    ensures tag in r <==> tag !in tags
    ensures forall t :: t != tag ==> (t in r <==> t in tags)
  {
    if tag in tags then tags - {tag} else tags + {tag}
  }

  /** Toggling twice restores the thread's tags. */
  lemma ToggleTwice(tags: set<string>, tag: string)
    ensures Toggle(Toggle(tags, tag), tag) == tags
  {
    var once := Toggle(tags, tag);
    assert forall t :: t in Toggle(once, tag) <==> t in tags;
  }

  /** `filter(lambda x: x, pieces)`: the non-empty pieces in order. */
  function NonEmpty(pieces: seq<string>): (r: seq<string>)
    ensures |r| <= |pieces|
    ensures forall k :: 0 <= k < |r| ==> r[k] != "" && r[k] in pieces
  {
    if |pieces| == 0 then []
    else if pieces[0] == "" then NonEmpty(pieces[1..])
    else [pieces[0]] + NonEmpty(pieces[1..])
  }

  /** A piece is kept exactly when it is non-empty. */
  lemma {:induction false} NonEmptyMembership(pieces: seq<string>, x: string)
    ensures x in NonEmpty(pieces) <==> x in pieces && x != ""
    decreases |pieces|
  {
    if |pieces| > 0 {
      NonEmptyMembership(pieces[1..], x);
      assert pieces == [pieces[0]] + pieces[1..];
    }
  }

  /** Filtering a list without empty pieces changes nothing. */
  lemma {:induction false} NonEmptyKeepsAll(pieces: seq<string>)
    requires forall k :: 0 <= k < |pieces| ==> pieces[k] != ""
    ensures NonEmpty(pieces) == pieces
    decreases |pieces|
  {
    if |pieces| > 0 {
      NonEmptyKeepsAll(pieces[1..]);
      assert pieces == [pieces[0]] + pieces[1..];
    }
  }

  /** `RetagCommand.apply`: the tags the thread is set to, from the
      comma-separated tag string with empty entries dropped. */
  function RetagTags(tagsstring: string): (r: seq<string>)
    ensures forall k :: 0 <= k < |r| ==> r[k] != "" && ',' !in r[k]
  {
    var pieces := Split(tagsstring, ',');
    var r := NonEmpty(pieces);
    assert forall k :: 0 <= k < |r| ==> r[k] in pieces;
    r
  }

  /** Tags that survive being joined with commas: none is empty or holds a
      comma. */
  predicate SimpleTags(tags: seq<string>) {
    forall k :: 0 <= k < |tags| ==> tags[k] != "" && ',' !in tags[k]
  }

  /** `RetagPromptCommand.apply`: the text the command prompt starts with.
      What follows `retag ` reads back as the thread's tags whenever no tag
      is empty or holds a comma. */
  function RetagPromptText(tags: seq<string>): (r: string)
    ensures |r| >= 6 && r[..6] == "retag "
    ensures SimpleTags(tags) ==> RetagTags(r[6..]) == tags
  {
    var joined := Join(",", tags);
    assert ("retag " + joined)[6..] == joined;
    if SimpleTags(tags) then
      RetagRoundTrip(tags);
      "retag " + joined
    else
      "retag " + joined
  }

  /** Reading back a comma-joined tag list gives the tags, so confirming the
      retag prompt unchanged leaves the thread's tags as they were. */
  lemma RetagRoundTrip(tags: seq<string>)
    requires forall k :: 0 <= k < |tags| ==> tags[k] != "" && ',' !in tags[k]
    ensures RetagTags(Join(",", tags)) == tags
  {
    if |tags| == 0 {
      assert Split("", ',') == [""];
    } else {
      SplitJoin(tags, ',');
      NonEmptyKeepsAll(tags);
    }
  }

  lemma {:induction false} JoinEndsWithLast(sep: string, parts: seq<string>)
    requires |parts| >= 1 && parts[|parts| - 1] != ""
    ensures var j := Join(sep, parts);
      j != "" && j[|j| - 1] == parts[|parts| - 1][|parts[|parts| - 1]| - 1]
    decreases |parts|
  {
    if |parts| > 1 {
      JoinEndsWithLast(sep, parts[1..]);
    }
  }

  /** The retag prompt's text ends in the last tag, not in whitespace. */
  lemma RetagPromptShape(tags: seq<string>)
    requires forall k :: 0 <= k < |tags| ==> tags[k] != "" && NoSpace(tags[k])
    ensures RetagPromptText(tags) == Spelling(Retag) + " " + Join(",", tags)
    ensures Join(",", tags) == "" || !IsSpace(Join(",", tags)[|Join(",", tags)| - 1])
  {
    if |tags| > 0 {
      JoinEndsWithLast(",", tags);
      var last := tags[|tags| - 1];
      assert !IsSpace(last[|last| - 1]);
    }
  }

  /** Confirming the retag prompt in a search buffer builds a
      `RetagCommand` whose tag string parses back to the thread's tags. */
  lemma RetagPromptConfirmed(n: Name, tags: seq<string>, env: Env)
    requires n == Retag
    requires SimpleTags(tags) && forall k :: 0 <= k < |tags| ==> NoSpace(tags[k])
    requires Spelling(n) !in env.aliases
    ensures var c := Interpret(RetagPromptText(tags), SearchMode, env);
      c.Built? && c.cmd.kind == RetagCommand
      && c.cmd.args == map["tagsstring" := Lit(Str(Join(",", tags)))]
      && RetagTags(Join(",", tags)) == tags
  {
    var rest := Join(",", tags);
    var text := RetagPromptText(tags);
    RetagPromptShape(tags);
    assert text[6..] == rest;
    RetagLine(n, text, rest, env);
  }

  /** A `retag` line builds a `RetagCommand` carrying the rest of the line.
      `n` is always `Retag`; it is a parameter so that the verifier keeps
      the spelling symbolic instead of unfolding the literal line. */
  lemma RetagLine(n: Name, line: string, rest: string, env: Env)
    requires n == Retag && Spelling(n) !in env.aliases
    requires line == Spelling(n) + " " + rest
    requires rest == "" || !IsSpace(rest[|rest| - 1])
    ensures var c := Interpret(line, SearchMode, env);
      c.Built? && c.cmd.kind == RetagCommand && c.cmd.args == map["tagsstring" := Lit(Str(rest))]
  {
    StringLine(n, line, rest, SearchMode, env);
  }

  /** `RefineCommand.apply`: the query the search buffer is rebuilt with, or
      `None` when the new query is absent or equal to the current one. */
  function Refined(current: string, query: Option<string>): (r: Option<string>)
    ensures r.Some? <==> query.Some? && query.value != current
    ensures r.Some? ==> r == query
  {
    match query
    case None => None
    case Some(q) => if q != current then Some(q) else None
  }

  /** Refining again with the same query does not rebuild the buffer. */
  lemma RefineSettles(current: string, query: Option<string>)
    ensures var next := Refined(current, query).GetOr(current);
      Refined(next, query).None?
  {
  }

  /** What `dbman.flush()` does on one attempt: commit, raise
      `DatabaseLockedError`, or raise anything else (a `DatabaseROError`,
      say), which `FlushCommand.apply` does not catch. */
  datatype Attempt = Committed | Locked | Failed

  /** What `FlushCommand.apply` does after one attempt: stop, set an alarm
      to try again after the configured `flush_retry_timeout`, or let the
      exception escape. */
  datatype Step = Done | RetryIn(seconds: int) | Thrown

  function FlushStep(a: Attempt, timeout: int): (s: Step)
    ensures s.Done? <==> a == Committed
    ensures s.Thrown? <==> a == Failed
    ensures s.RetryIn? ==> s.seconds == timeout
  {
    match a
    case Committed => Done
    case Locked => RetryIn(timeout)
    case Failed => Thrown
  }

  /** The steps of a flush given the answers of successive attempts: it
      retries after every locked attempt and stops at the first attempt
      that is not locked. */
  function FlushRun(attempts: seq<Attempt>, timeout: int): (r: seq<Step>)
    ensures |r| <= |attempts|
    ensures forall k :: 0 <= k < |r| ==> r[k] == FlushStep(attempts[k], timeout)
    ensures forall k :: 0 <= k < |r| - 1 ==> attempts[k] == Locked && r[k] == RetryIn(timeout)
    ensures (Committed in attempts || Failed in attempts) <==> (|r| > 0 && !r[|r| - 1].RetryIn?)
    ensures Committed !in attempts && Failed !in attempts ==> |r| == |attempts|
  {
    if |attempts| == 0 then []
    else
      var s := FlushStep(attempts[0], timeout);
      if !s.RetryIn? then [s]
      else
        var rest := FlushRun(attempts[1..], timeout);
        assert attempts == [attempts[0]] + attempts[1..];
        [s] + rest
  }

  /** A flush sets one alarm per locked attempt before the first attempt
      that is not locked, ends there (committed, or with the exception
      escaping), and the attempts after it are never made. */
  lemma {:induction false} FlushStopsAt(before: seq<Attempt>, last: Attempt, later: seq<Attempt>, timeout: int)
    requires forall k :: 0 <= k < |before| ==> before[k] == Locked
    requires last != Locked
    ensures var r := FlushRun(before + [last] + later, timeout);
      |r| == |before| + 1 && r[|before|] == FlushStep(last, timeout)
      && r == FlushRun(before + [last], timeout)
    decreases |before|
  {
    var a := before + [last] + later;
    var b := before + [last];
    if |before| > 0 {
      assert a[0] == b[0] == Locked;
      assert a[1..] == before[1..] + [last] + later;
      assert b[1..] == before[1..] + [last];
      FlushStopsAt(before[1..], last, later, timeout);
      assert FlushRun(a, timeout) == [RetryIn(timeout)] + FlushRun(a[1..], timeout);
      assert FlushRun(b, timeout) == [RetryIn(timeout)] + FlushRun(b[1..], timeout);
    } else {
      assert a[0] == b[0] == last;
    }
  }
}

=== FILE: text.dfy ===
/** The Python string operations the command layer relies on: `strip`,
    `split(sep)`, `split()` without a separator, `sep.join` and `in` on strings. */
module Text {
  import opened Basics

  /** Python 2 `str` whitespace: space, tab, newline, carriage return,
      vertical tab and form feed. */
  predicate IsSpace(c: char) {
    c == ' ' || c == '\t' || c == '\n' || c == '\r' || c == '\U{000B}' || c == '\U{000C}'
  }

  /** No character of `s` is whitespace. */
  predicate NoSpace(s: string) {
    forall i :: 0 <= i < |s| ==> !IsSpace(s[i])
  }

  /** Every character of `s` is whitespace (vacuously true of ""). */
  predicate Blank(s: string) {
    forall i :: 0 <= i < |s| ==> IsSpace(s[i])
  }

  /** `s` has no leading and no trailing whitespace. */
  predicate Stripped(s: string) {
    s == "" || (!IsSpace(s[0]) && !IsSpace(s[|s| - 1]))
  }

  /** The first index at or after `i` that does not hold whitespace, or
      `|s|`. */
  function SkipSpace(s: string, i: nat): (n: nat)
    requires i <= |s|
    ensures i <= n <= |s|
    ensures forall k :: i <= k < n ==> IsSpace(s[k])
    ensures n < |s| ==> !IsSpace(s[n])
    decreases |s| - i
  {
    if i < |s| && IsSpace(s[i]) then SkipSpace(s, i + 1) else i
  }

  /** The smallest `m <= j` such that `s[m..j]` is all whitespace. */
  function BackSpace(s: string, j: nat): (m: nat)
    requires j <= |s|
    ensures m <= j
    ensures forall k :: m <= k < j ==> IsSpace(s[k])
    ensures m > 0 ==> !IsSpace(s[m - 1])
  {
    if j > 0 && IsSpace(s[j - 1]) then BackSpace(s, j - 1) else j
  }

  /** Where `Strip(s)` starts in `s`. */
  function StripOffset(s: string): (a: nat)
    ensures a <= |s|
    ensures a == |s| <==> Blank(s)
  {
    var a := SkipSpace(s, 0);
    assert a < |s| ==> !Blank(s);
    a
  }

  /** Where `Strip(s)` ends in `s`. */
  function StripEnd(s: string): (b: nat)
    ensures StripOffset(s) <= b <= |s|
    ensures b > StripOffset(s) ==> !IsSpace(s[b - 1])
    ensures b < |s| ==> IsSpace(s[|s| - 1])
  {
    var a := StripOffset(s);
    if a == |s| then a
    else
      var b := BackSpace(s, |s|);
      assert !IsSpace(s[a]);
      b
  }

  /** Python's `s.strip()`. */
  function Strip(s: string): (r: string)
    ensures Stripped(r)
    ensures r == "" <==> Blank(s)
    ensures Stripped(s) ==> r == s
  {
    var a := StripOffset(s);
    var b := StripEnd(s);
    var r := s[a..b];
    assert r != "" ==> r[0] == s[a] && r[|r| - 1] == s[b - 1];
    r
  }

  /** `Strip(s)` is the infix of `s` that starts at `StripOffset(s)`. */
  lemma StripIsInfix(s: string)
    ensures StripOffset(s) + |Strip(s)| <= |s|
    ensures s[StripOffset(s)..StripOffset(s) + |Strip(s)|] == Strip(s)
  {
  }

  /** Stripping a stripped word with one space after it gives the word. */
  lemma StripTrailingSpace(w: string)
    requires w != "" && Stripped(w)
    ensures Strip(w + " ") == w
  {
    var s := w + " ";
    assert s[0] == w[0] && s[|w| - 1] == w[|w| - 1] && s[|w|] == ' ';
    assert StripOffset(s) == 0;
    assert BackSpace(s, |s|) == BackSpace(s, |w|) == |w|;
    assert s[..|w|] == w;
  }

  /** Python's `a in s` on strings: `a` occurs in `s` at offset `i`. */
  predicate OccursAt(a: string, s: string, i: nat) {
    i + |a| <= |s| && s[i..i + |a|] == a
  }

  /** Python's `a in s` on strings. */
  predicate IsSubstring(a: string, s: string) {
    exists i: nat | i <= |s| :: OccursAt(a, s, i)
  }

  /** A substring of an infix of `s` is a substring of `s`. */
  lemma SubstringOfInfix(a: string, s: string, lo: nat, hi: nat)
    requires lo <= hi <= |s|
    requires IsSubstring(a, s[lo..hi])
    ensures IsSubstring(a, s)
  {
    var i: nat :| i <= hi - lo && OccursAt(a, s[lo..hi], i);
    assert i + |a| <= hi - lo;
    var t := s[lo..hi];
    forall k | 0 <= k < |a| ensures s[lo + i + k] == a[k] {
      assert a[k] == t[i..i + |a|][k] == t[i + k];
    }
    assert s[lo + i..lo + i + |a|] == a;
    assert OccursAt(a, s, lo + i);
  }

  /** Stripping never creates a substring that was not already there. */
  lemma SubstringOfStrip(a: string, s: string)
    requires IsSubstring(a, Strip(s))
    ensures IsSubstring(a, s)
  {
    StripIsInfix(s);
    SubstringOfInfix(a, s, StripOffset(s), StripOffset(s) + |Strip(s)|);
  }

  /** Python's `s.find(c)` for one character, `None` for -1. */
  function Find(s: string, c: char): (r: Option<nat>)
    ensures r.None? <==> c !in s
    ensures r.Some? ==> r.value < |s| && s[r.value] == c
    ensures r.Some? ==> forall k :: 0 <= k < r.value ==> s[k] != c
  {
    FindFrom(s, c, 0)
  }

  function FindFrom(s: string, c: char, i: nat): (r: Option<nat>)
    requires i <= |s|
    requires forall k :: 0 <= k < i ==> s[k] != c
    ensures r.None? <==> c !in s
    ensures r.Some? ==> i <= r.value < |s| && s[r.value] == c
    ensures r.Some? ==> forall k :: 0 <= k < r.value ==> s[k] != c
    decreases |s| - i
  {
    if i == |s| then None
    else if s[i] == c then Some(i)
    else FindFrom(s, c, i + 1)
  }

  /** The first `c` of `p + [c] + t` is the one after `p` when `p` has none. */
  lemma FindAfterPrefix(p: string, c: char, t: string)
    requires c !in p
    ensures Find(p + [c] + t, c) == Some(|p|)
  {
    var s := p + [c] + t;
    assert s[|p|] == c;
    assert forall k :: 0 <= k < |p| ==> s[k] == p[k];
  }

  /** Python's `sep.join(parts)`. */
  function Join(sep: string, parts: seq<string>): string {
    if |parts| == 0 then ""
    else if |parts| == 1 then parts[0]
    else parts[0] + sep + Join(sep, parts[1..])
  }

  /** Python's `s.split(c)` with a one-character separator: at least one
      piece, empty pieces kept, no piece holds the separator. */
  function Split(s: string, c: char): (r: seq<string>)
    ensures |r| >= 1
    ensures forall k :: 0 <= k < |r| ==> c !in r[k]
    ensures Join([c], r) == s
    decreases |s|
  {
    match Find(s, c)
    case None => [s]
    case Some(i) =>
      var head := s[..i];
      var rest := Split(s[i + 1..], c);
      assert c !in head by {
        forall k | 0 <= k < |head| ensures head[k] != c {
          assert head[k] == s[k];
        }
      }
      var r := [head] + rest;
      assert r[0] == head && r[1..] == rest;
      assert Join([c], r) == head + [c] + Join([c], rest);
      assert s == head + [c] + s[i + 1..];
      r
  }

  /** Splitting a join of separator-free pieces gives the pieces back. */
  lemma {:induction false} SplitJoin(parts: seq<string>, c: char)
    requires |parts| >= 1
    requires forall k :: 0 <= k < |parts| ==> c !in parts[k]
    ensures Split(Join([c], parts), c) == parts
    decreases |parts|
  {
    if |parts| == 1 {
      assert Join([c], parts) == parts[0];
      assert Find(parts[0], c) == None;
    } else {
      var head := parts[0];
      var tail := Join([c], parts[1..]);
      var s := head + [c] + tail;
      assert Join([c], parts) == s;
      FindAfterPrefix(head, c, tail);
      assert s[..|head|] == head;
      assert s[|head| + 1..] == tail;
      SplitJoin(parts[1..], c);
      assert Split(s, c) == [head] + Split(tail, c);
      assert parts == [head] + parts[1..];
    }
  }

  /** The first whitespace index at or after `i`, or `|s|`. */
  function WordEndFrom(s: string, i: nat): (n: nat)
    requires i <= |s|
    ensures i <= n <= |s|
    ensures forall k :: i <= k < n ==> !IsSpace(s[k])
    ensures n < |s| ==> IsSpace(s[n])
    decreases |s| - i
  {
    if i < |s| && !IsSpace(s[i]) then WordEndFrom(s, i + 1) else i
  }

  /** Python's `s.split()`: the maximal runs of non-whitespace, in order. */
  function Words(s: string): (r: seq<string>)
    ensures forall k :: 0 <= k < |r| ==> r[k] != "" && NoSpace(r[k])
    decreases |s|
  {
    var a := SkipSpace(s, 0);
    if a == |s| then []
    else
      var b := WordEndFrom(s, a);
      var w := s[a..b];
      assert forall k :: 0 <= k < |w| ==> w[k] == s[a + k];
      [w] + Words(s[b..])
  }

  /** After leading whitespace, a word ended by whitespace or by the end
      of the string is the first of the words. */
  lemma FirstWord(pad: string, w: string, tail: string)
    requires Blank(pad) && w != "" && NoSpace(w)
    requires tail == "" || tail[0] == ' '
    ensures Words(pad + w + tail) == [w] + Words(tail)
  {
    var s := pad + w + tail;
    assert forall k :: 0 <= k < |pad| ==> s[k] == pad[k];
    assert s[|pad|] == w[0];
    var a := SkipSpace(s, 0);
    assert a == |pad|;
    assert forall k :: |pad| <= k < |pad| + |w| ==> s[k] == w[k - |pad|];
    assert |pad| + |w| < |s| ==> s[|pad| + |w|] == ' ';
    var b := WordEndFrom(s, a);
    assert b == |pad| + |w|;
    assert s[a..b] == w;
    assert s[b..] == tail;
  }

  /** Reading back a space-joined list of words, after any run of leading
      whitespace, gives the list. */
  lemma {:induction false} WordsJoinAfter(pad: string, ws: seq<string>)
    requires Blank(pad)
    requires forall k :: 0 <= k < |ws| ==> ws[k] != "" && NoSpace(ws[k])
    ensures Words(pad + Join(" ", ws)) == ws
    decreases |ws|
  {
    if |ws| == 0 {
      var s := pad + Join(" ", ws);
      assert s == pad;
      assert SkipSpace(s, 0) == |s|;
    } else if |ws| == 1 {
      FirstWord(pad, ws[0], "");
      assert pad + Join(" ", ws) == pad + ws[0] + "";
      assert Words("") == [];
    } else {
      var tail := " " + Join(" ", ws[1..]);
      assert pad + Join(" ", ws) == pad + ws[0] + tail;
      FirstWord(pad, ws[0], tail);
      WordsJoinAfter(" ", ws[1..]);
      assert ws == [ws[0]] + ws[1..];
    }
  }

  /** Reading back a space-joined list of words gives the list. */
  lemma WordsJoin(ws: seq<string>)
    requires forall k :: 0 <= k < |ws| ==> ws[k] != "" && NoSpace(ws[k])
    ensures Words(Join(" ", ws)) == ws
  {
    WordsJoinAfter("", ws);
    assert "" + Join(" ", ws) == Join(" ", ws);
  }
}
